=== FILE: README.md ===
# PubSub broker of playwright-fixtures, modelled in Dafny

The package gives Playwright tests fixtures (`ga`, `facebook`, `dataLayer`, and in
the TypeScript sources `collects_ga3`, `collects_ga4`, `dataLayer`). Each one owns
a `PubSub` broker. The page side publishes messages: flattened analytics request
URLs, or objects pushed onto `window.dataLayer`. The test side reads the log or
calls `waitForMessage`. That call returns a promise that resolves with the first
later message that matches, or rejects when a timeout fires.

The broker exists in two versions, and both are modelled:

- **dist/index.js**, the compiled package. `waitForMessage(predicate, options)`
  arms a timer and subscribes a closure. A match clears the timer, deletes the
  closure and resolves. The timer deletes the closure and rejects. The fixtures
  first turn their options record into one predicate, or throw.
- **src/index.ts**, the TypeScript sources. `subscribe` and `unsubscribe` are
  public. The match decision is taken inline from the config. The timer is never
  cleared, and a timed-out subscriber stays registered until a later matching
  message removes it.

How the model is built:

- Each broker is a pure state machine: `DistBroker` and `SrcBroker`. The state
  holds the log, the subscriber `Set`, and per wait its closure state (policy,
  options, timer armed, promise outcome). The transition functions are
  `Publish`, `WaitForMessage`, `Fire`, and for src also `Subscribe` and
  `Unsubscribe`.
- `Fire(id)` is the event "the timer of wait `id` elapses". It replaces
  `setTimeout`. A cleared timer never fires.
- The classes `DistPubSub.PubSub` and `SrcPubSub.PubSub` update their fields in
  place, publishing with a loop over the subscriber set. Each method is proved
  to perform the matching transition.
- `OrderedSet` models the JavaScript `Set` as a duplicate-free sequence in
  insertion order. `Promise` models settle-once.
- Regular expressions and zod schemas are abstract boolean tests.
  `Matchers.ToMatchObject` gives Playwright's `toMatchObject` a concrete
  definition. It is an APPROXIMATION: recursive subset equality over JSON-like
  values.

The central result, proved for each version (`WaitSettlesByFirstEvent`): after
any sequence of publishes, new waits, subscriptions and timer events, a pending
wait's outcome equals the reference function `Decide`. That outcome is the first
published message the wait accepts, or its own timeout, whichever comes first.
Once settled, it never changes. Further results:

- The log is append-only.
- Messages already in the log are never replayed.
- A settled wait is cleaned up: in dist the subscriber and the timer are gone;
  in src a resolved wait has unsubscribed.

Behaviour of the code worth knowing:

- A config with several policy fields is not rejected. Precedence decides.
- A config with no policy field throws only in dist. In src it matches every
  message.
- src never clears its timer; without a `timeoutMessage` it rejects with just `'timeout'`.
- The schema option is `matchZodObject`, tested with zod's `safeParse`.
- Subscribers are notified in `Set` insertion order.

## Model

| member | source | states |
|---|---|---|
| OrderedSet.Add | src/index.ts:66-68 | after `Set.add` the set holds the old elements plus the new one; the old elements keep their order; no duplicate is ever introduced |
| OrderedSet.Remove | src/index.ts:74-76 | `Set.delete` removes exactly that element, is a no-op when it is absent, and keeps the set duplicate-free |
| OrderedSet.AddTwiceSingleEntry | src/index.ts:66-68 | adding the same element twice equals adding it once and leaves exactly one entry |
| OrderedSet.RemoveSplices | src/index.ts:74-76 | deleting the element at position i splices it out; every other element keeps its relative order |
| Promise.Settle | dist/index.js:178 | a pending promise takes the first resolve/reject; a settled one ignores it |
| Promise.Resolve | dist/index.js:188 | `resolve(message)` fulfils a pending promise with that message and is ignored by a settled one (also src/index.ts:112) |
| Promise.Reject | dist/index.js:182 | the timer's `reject` rejects a pending promise with the timeout text and is ignored by a settled one (also src/index.ts:94) |
| Promise.SettledIsFinal | dist/index.js:178-192 | a settled promise ignores every later resolve or reject |
| Promise.FirstCallWins | src/index.ts:93-115 | a pending promise's outcome is fixed by the first resolve/reject call, whatever follows |
| Decimal.NatToString | dist/index.js:182 | a number prints as decimal digits without leading zeros, and parsing them gives the number back |
| Decimal.FromInt | dist/index.js:182 | `${timeout}` for an integer prints a string that parses back to that integer and is canonical: "0", or no leading zero after an optional minus sign |
| Decimal.CanonicalIsUnique | dist/index.js:182 | the printed form is fixed by the number: the only canonical string that parses to n is `FromInt(n)`, so "010" or "-0" never appear |
| Matchers.ToMatchObject | dist/index.js:109-117 | `toMatchObject` failing or throwing is "no match"; it matches only when both the received message and the template are objects |
| Matchers.SubsetReflexive | dist/index.js:111 | every well-formed value is a structural subset of itself, so every well-formed object or array message matches itself as a template |
| Matchers.ExtraPropertiesIgnored | dist/index.js:111 | a message matches any template made of some of its own properties; extra properties are ignored |
| Matchers.SubsetTransitive | dist/index.js:111 | a message matching a template also matches every template that the first template matches |
| DistBroker.TimeoutReason | dist/index.js:182 | the rejection is `timeoutMessage` when non-empty; otherwise "Timeout waiting for message after " + the timeout + "ms", and the number in it is canonical (no leading zero, no "-0") and parses back to the timeout, so by `Decimal.CanonicalIsUnique` it is exactly what `${options.timeout}` prints |
| DistBroker.Init | dist/index.js:164-165 | a new broker has an empty log and no subscribers, and satisfies the invariant |
| DistBroker.Publish | dist/index.js:169-172 | `publish` appends the message at the end of the log; the id counter and the set of waits are unchanged |
| DistBroker.WaitForMessage | dist/index.js:177-193 | a new wait has a fresh id, is subscribed, holds the caller's `predicate` and `options`, is pending, with its timer armed; the log and the existing waits are unchanged; the invariant is kept |
| DistBroker.Fire | dist/index.js:180-183 | an armed timer deletes its subscriber and settles its wait; every other wait and subscriber is untouched; the invariant is kept |
| DistBroker.Matched | dist/index.js:186-188 | a match clears the timer and resolves a pending wait with the message; a settled wait keeps its outcome; the predicate and options stay |
| DistBroker.Notify | dist/index.js:184-190 | one call of the subscriber closure: when it is still subscribed and its predicate accepts the message, it deletes itself and settles by `Matched`; otherwise the state is unchanged; other waits and subscribers are never touched |
| DistBroker.DeliverFrame | dist/index.js:171 | the `forEach` pass (`Deliver`, a fold of `Notify` over the subscribers) never touches the log, the id counter or the set of waits, and only removes subscribers |
| DistBroker.DeliverAt | dist/index.js:171-190 | in one `forEach` pass a wait is settled exactly when it is in the pass, still subscribed, and its predicate accepts the message; all others are untouched |
| DistBroker.PublishKeepsValid | dist/index.js:169-190 | after `publish` the subscriber set is still exactly the pending waits, each once, and timers are armed exactly while pending |
| DistBroker.PublishNonMatching | dist/index.js:184-185 | a message the predicate rejects leaves the wait exactly as it was, still subscribed |
| DistBroker.PublishMatching | dist/index.js:185-188 | a matching message clears the timer, deletes the subscriber, and resolves the wait with exactly that message |
| DistBroker.FireRejects | dist/index.js:180-183 | the timer of a pending wait deletes its subscriber and rejects with the timeout text |
| DistBroker.StepKeepsValid | dist/index.js:163-193 | every broker operation keeps the invariant |
| DistBroker.RunKeepsValid | dist/index.js:180-191 | after any trace every settled wait is cleaned up: no subscriber and no armed timer remain |
| DistBroker.LogIsAppendOnly | dist/index.js:169-170 | after any trace the log is the old log followed by the published messages, in order |
| DistBroker.SettledStaysSettled | dist/index.js:180-191 | a settled outcome never changes, whatever is published or fires later |
| DistBroker.Decide | dist/index.js:177-193 | reference semantics of one wait: a resolution comes from an accepted, published message; a rejection comes from its own timer event, with the timeout text |
| DistBroker.WaitSettlesByFirstEvent | dist/index.js:177-193 | a pending wait settles exactly as `Decide` says: by the first matching message or its own timeout, whichever comes first |
| DistBroker.NoReplay | dist/index.js:177-193 | a new wait is pending; after any later trace its outcome is `Decide` for the caller's own predicate and options (first matching message or its own timeout with `TimeoutReason(options)`), so it resolves only with an accepted message published after the call |
| DistPubSub.PubSub.constructor | dist/index.js:164-165 | a new broker is the initial state |
| DistPubSub.PubSub.Publish | dist/index.js:169-172 | the in-place `publish` performs the model's `Publish`, appends to `messages`, and calls each subscriber present at the call, once, in order |
| DistPubSub.PubSub.CallSubscriber | dist/index.js:184-190 | the subscriber closure performs one model notification |
| DistPubSub.PubSub.WaitForMessage | dist/index.js:177-193 | the in-place `waitForMessage` performs the model's transition and returns a fresh pending wait |
| DistPubSub.PubSub.Fire | dist/index.js:180-183 | the in-place timer callback performs the model's `Fire` |
| DistFixtures.HitPredicate | dist/index.js:57-66 | `predicate` wins over `regex`; with neither it throws the exact error text; a regex predicate answers `regex.test(url)` (the `facebook` copy at dist/index.js:143-151 is identical) |
| DistFixtures.DataLayerPredicate | dist/index.js:104-124 | `predicate`, then `matchObject` (a failing or throwing `toMatchObject` is "no match"), then `matchZodObject`; with none it throws the exact error text |
| DistFixtures.HitWaitForMessage | dist/index.js:56-68 | invalid options throw before any subscriber or timer exists; otherwise the broker starts a wait with the chosen predicate (also `facebook`, dist/index.js:141-153) |
| DistFixtures.DataLayerWaitForMessage | dist/index.js:103-126 | invalid options throw with the broker unchanged; otherwise the broker starts a wait with the chosen predicate |
| SrcBroker.Accepts | src/index.ts:96-110 | the match decision: the first present of `predicate`, `matchObject`, `matchZodObject`, `regex` decides; no field present means every message matches |
| SrcBroker.TimeoutReason | src/index.ts:94 | the rejection is `timeoutMessage` when non-empty, otherwise "timeout" |
| SrcBroker.Init | src/index.ts:57-58 | a new broker has an empty log and no subscribers, and satisfies the invariant |
| SrcBroker.Subscribe | src/index.ts:66-68 | the callback is in the set afterwards, the earlier entries keep their order, and nothing else changes |
| SrcBroker.Unsubscribe | src/index.ts:74-76 | only that callback leaves the set, and removing an absent callback is a no-op |
| SrcBroker.Publish | src/index.ts:82-85 | `publish` appends the message at the end of the log; the id counter and the set of waits are unchanged |
| SrcBroker.WaitForMessage | src/index.ts:92-116 | a new wait has a fresh id, is subscribed, holds the caller's `config`, is pending, with its timer armed; the log and the existing waits are unchanged; the invariant is kept |
| SrcBroker.Fire | src/index.ts:94 | the timer never touches the subscriber set; an armed timer settles its wait; other waits are untouched; the invariant is kept |
| SrcBroker.Matched | src/index.ts:111-112 | a match resolves a pending wait with the message and leaves the timer armed; a settled wait keeps its outcome |
| SrcBroker.Notify | src/index.ts:95-113 | one call of a subscriber: a consumer's callback changes nothing; a wait subscriber still in the set whose config accepts the message unsubscribes and settles by `Matched`; otherwise nothing changes; other subscribers and waits are never touched |
| SrcBroker.DeliverFrame | src/index.ts:84 | the `for...of` pass (`Deliver`, a fold of `Notify` over the subscribers) never touches the log, the id counter or the set of waits, never removes a consumer's callback, and only removes subscribers |
| SrcBroker.DeliverAt | src/index.ts:84 | in one `for...of` pass a wait is resolved exactly when its subscriber is in the pass, still subscribed, and accepts the message |
| SrcBroker.PublishKeepsValid | src/index.ts:82-85 | after `publish` pending waits are subscribed with armed timers, and resolved waits are unsubscribed |
| SrcBroker.SubscribeKeepsValid | src/index.ts:66-68 | `subscribe` keeps the broker invariant |
| SrcBroker.UnsubscribeKeepsValid | src/index.ts:74-76 | `unsubscribe` keeps the broker invariant |
| SrcBroker.SubscribeTwice | src/index.ts:66-68 | subscribing the same callback twice leaves one entry; re-subscribing a present callback changes nothing |
| SrcBroker.UnsubscribeRemovesOnly | src/index.ts:74-76 | `unsubscribe` removes only that callback and splices it out, keeping the other subscribers in order; it is a no-op when the callback is absent |
| SrcBroker.PublishKeepsCallbacks | src/index.ts:84 | `publish` never removes a consumer's callback |
| SrcBroker.PublishNonMatching | src/index.ts:96-110 | a message the config rejects returns early: the wait is unchanged and still subscribed |
| SrcBroker.PublishMatching | src/index.ts:111-112 | a matching message unsubscribes a pending wait and resolves it with exactly that message |
| SrcBroker.FireRejectsAndKeepsSubscriber | src/index.ts:94 | the timer rejects a pending wait with the timeout text and leaves its subscriber registered |
| SrcBroker.LateMatchAfterTimeout | src/index.ts:94-114 | a match after the timeout unsubscribes the stale subscriber, and the wait stays rejected |
| SrcBroker.FireAfterResolve | src/index.ts:94 | a timer that was never cleared cannot reject a resolved wait |
| SrcBroker.StepKeepsValid | src/index.ts:53-117 | every broker operation keeps the invariant |
| SrcBroker.RunKeepsValid | src/index.ts:111-112 | after any trace no resolved wait is still subscribed |
| SrcBroker.LogIsAppendOnly | src/index.ts:82-83 | after any trace the log is the old log followed by the published messages, in order |
| SrcBroker.SettledStaysSettled | src/index.ts:93-115 | a settled outcome never changes, whatever is published, subscribed or fires later |
| SrcBroker.Decide | src/index.ts:92-116 | reference semantics of one wait: a resolution comes from an accepted, published message; a rejection comes from its own timer event, with the timeout text |
| SrcBroker.WaitSettlesByFirstEvent | src/index.ts:92-116 | even with an uncleared timer and a stale subscriber, a pending wait settles exactly as `Decide` says: first match or timeout, whichever comes first |
| SrcBroker.NoReplay | src/index.ts:92-116 | a new wait is pending; after any later trace its outcome is `Decide` for the caller's own config (first accepted message or its own timeout with `TimeoutReason(config)`), so only messages published after its subscription can resolve it |
| SrcPubSub.PubSub.constructor | src/index.ts:57-59 | a new broker is the initial state |
| SrcPubSub.PubSub.Subscribe | src/index.ts:66-68 | the in-place `subscribe` performs the model's `Subscribe` |
| SrcPubSub.PubSub.Unsubscribe | src/index.ts:74-76 | the in-place `unsubscribe` performs the model's `Unsubscribe` |
| SrcPubSub.PubSub.Publish | src/index.ts:82-85 | the in-place `publish` performs the model's `Publish`, appends to `messages`, and calls each subscriber present at the call, once, in insertion order |
| SrcPubSub.PubSub.CallSubscriber | src/index.ts:95-113 | the subscriber closure performs one model notification |
| SrcPubSub.PubSub.WaitForMessage | src/index.ts:92-116 | the in-place `waitForMessage` performs the model's transition and returns a fresh pending wait |
| SrcPubSub.PubSub.Fire | src/index.ts:94 | the in-place timer callback performs the model's `Fire` and leaves the subscribers alone |
| Versions.DataLayerDispatchAgrees | dist/index.js:104-124 | on dataLayer options the dist dispatcher and the src inline chain (src/index.ts:96-110) agree on every message; where dist throws, src accepts every message |
| Versions.HitDispatchAgrees | dist/index.js:57-66 | on hit options the dist dispatcher and the src inline chain agree on every URL |
| Versions.TimeoutTexts | dist/index.js:182 | with a non-empty `timeoutMessage` both versions reject with the same text (dist wraps it in an `Error`, src/index.ts:94 rejects with the bare string); without one, src says "timeout" and dist's text differs from it (it states the timeout) |
| Scenarios.LogAfterOnePublish | dist/index.js:169-170 | a new broker that publishes "a" has the log ["a"] |
| Scenarios.RegexWaitSkipsThenResolves | dist/index.js:61-62 | a regex wait stays pending through a rejected URL and resolves with the next accepted one |
| Scenarios.ObjectWaitTimesOut | dist/index.js:180-183 | an object wait whose 10 ms timer fires first rejects with "Timeout waiting for message after 10ms"; in src, with "timeout" |
| Scenarios.ObjectWaitIgnoresExtraProperties | dist/index.js:108-117 | template {a: 1} is matched by message {a: 1, b: 2}, and the wait resolves with the whole message |
| Scenarios.IndependentWaits | dist/index.js:171 | of two waits, a message only the first accepts resolves the first and leaves the second pending and subscribed |
| Scenarios.StaleSubscriberAfterTimeout | src/index.ts:94-112 | in src a timed-out wait keeps its subscriber, and a later match removes it while the wait stays rejected |
| Scenarios.EmptyConfigResolvesOnNextMessage | src/index.ts:96-112 | in src a config with no policy field (reachable only from untyped JavaScript or a cast) is resolved by the next message, whatever it is |

## Left out

- Browser and fixture plumbing is host I/O with no broker logic. This covers the
  browser, context and page setup, the CDP connection, the `goto` override,
  `page.on('request')`/`page.off`, `exposeFunction`, the `addInitScript`
  dataLayer proxy and its `performance.now()` timestamps.
- `flatRequestUrl` is a foreign library. Producers appear only as `Publish` calls.
- The JavaScript regular-expression engine and the default GA/Facebook patterns
  are foreign. A `Regex` is known only by its `test` outcome, a fixed function
  of the string. With the `g` or `y` flag, `RegExp.prototype.test` is stateful
  through `lastIndex`. The source calls `test` once per message
  (dist/index.js:62 and 147, src/index.ts:109), so such a regex could answer
  differently for the same message. That is not modelled.
- zod's `safeParse` is foreign. A `Schema` is known only by whether it succeeds.
- Matchers.ToMatchObject: approximates Playwright's `toMatchObject` over
  JSON-like values. Not modelled: `undefined`, `NaN`, dates, class instances,
  asymmetric matchers, and non-integer numbers. An object template is matched
  key by key against any non-null received value, arrays included, so
  `expect([]).toMatchObject({})` passes; the model requires a received object there.
- Real time is not modelled. Timers are explicit `Fire(id)` events, so "rejects
  after about N ms, not earlier" is not stated. Only the order of events is.
- Exceptions thrown by a user predicate are not modelled, because Dafny
  functions are total. In both versions such an exception would escape the
  notification loop and skip the remaining subscribers. That sharp edge is left
  open.
- Consumers' callbacks registered with `subscribe` (src) are foreign code. The
  model records that they are called, in order. A callback that changes the
  broker during a pass is not modelled.
- The fixtures expose `messages` as the broker's own array, an alias to the
  log. The model has log values, not array references, so that sharing is not
  captured.
- Versions.TimeoutTexts: compares the rejection texts only. dist/index.js:182
  rejects with `new Error(text)`; src/index.ts:94 rejects with the bare string.
  A consumer reading `error.message` gets the text from dist and `undefined`
  from src. `Promise.Outcome` records only the text, so the kind of rejection
  value is not modelled.
- DistBroker.WaitForMessage: the options record is copied when the wait is
  created, and `DistFixtures.HitPredicate` fixes the regex at that point. dist
  reads the record live. It reads `options.regex` at dist/index.js:62 and 147,
  and `options.matchObject` and `options.matchZodObject` at dist/index.js:111
  and 120, on every predicate call. It reads `options.timeoutMessage` and
  `options.timeout` for the text when the timer fires (dist/index.js:182). A
  caller that mutates its options after the call is not modelled.
- SrcBroker.WaitForMessage: `config` is copied when the wait is created.
  src/index.ts:96-109 tests `'predicate' in config` and the other policy fields
  on every notification, so changes to the record after the call would change
  the match rule. Those changes are not modelled. The timeout text is taken
  once, at the call (src/index.ts:94), as in the model.
- DistBroker.TimeoutReason: the timeout is an integer, so an absent or `NaN`
  timeout is not modelled. dist reads `options.timeout` with no default, and
  its declarations make the field optional (dist/index.d.ts:8,12). With it
  absent, `setTimeout(cb, undefined)` fires after 0 ms and the text reads
  "Timeout waiting for message after undefinedms" (dist/index.js:182-183).
- Decimal.FromInt: only integers are printed. JavaScript's exponent form for
  magnitudes of 10^21 and above, and fractional timeouts, are not modelled.
- dist/index.d.ts holds type declarations only, and is not modelled beyond the
  optional `timeout` noted above.

## Findings

| source | as written | input that shows it | evidently intended | confidence | as-written member | corrected member |
|---|---|---|---|---|---|---|
| src/index.ts:94 | the timeout calls `reject` but never unsubscribes, and the timer is never cleared | a `regex` wait whose timer fires and whose regex never matches: its subscriber stays in `subscribers` and is called on every later publish | the timeout deletes the subscriber, as dist/index.js:181 does, so that a settled wait leaves nothing registered | not executed; medium | Scenarios.StaleSubscriberAfterTimeout | DistBroker.RunKeepsValid |
| src/index.ts:96-112 | a config with none of the four policy fields falls through and resolves | `waitForMessage({timeout: 1000} as any)` followed by `publish(x)` resolves with `x`, whatever `x` is; the option types at src/index.ts:15-44 require one policy field, so only untyped JavaScript or a cast reaches this | such a config is a configuration error that throws before subscribing, as the dist dispatchers do | not executed; low | Scenarios.EmptyConfigResolvesOnNextMessage | DistFixtures.DataLayerWaitForMessage |

=== FILE: decimal.dfy ===
/**
 * How JavaScript prints an integral `Number` (`String(n)`, or a template
 * literal `${n}`): an optional minus sign and decimal digits without leading
 * zeros. `Parse` reads such a string back; the two are proved inverse.
 */
module Decimal {
  import opened Wrappers

  predicate IsDigit(c: char) {
    '0' <= c <= '9'
  }

  predicate IsDigits(s: string) {
    |s| >= 1 && forall i :: 0 <= i < |s| ==> IsDigit(s[i])
  }

  function DigitChar(d: nat): (c: char)
    requires d < 10
    ensures IsDigit(c) && c as int - '0' as int == d
  {
    ('0' as int + d) as char
  }

  function DigitValue(c: char): (d: nat)
    requires IsDigit(c)
    ensures d < 10 && DigitChar(d) == c
  {
    c as int - '0' as int
  }

  /** The value of a string of decimal digits, most significant first. */
  function ParseNat(s: string): nat
    requires IsDigits(s)
    decreases |s|
  {
    if |s| == 1 then DigitValue(s[0])
    else ParseNat(s[..|s| - 1]) * 10 + DigitValue(s[|s| - 1])
  }

  /** The decimal digits of `n`, without leading zeros. */
  function NatToString(n: nat): (r: string)
    ensures IsDigits(r)
    ensures r[0] == '0' ==> r == "0"
    ensures ParseNat(r) == n
    decreases n
  {
    if n < 10 then [DigitChar(n)]
    else
      var front := NatToString(n / 10);
      var r := front + [DigitChar(n % 10)];
      assert r[..|r| - 1] == front;
      r
  }

  /** Reads an optional minus sign followed by decimal digits. */
  function Parse(s: string): Option<int> {
    if |s| >= 2 && s[0] == '-' && IsDigits(s[1..]) then Some(0 - ParseNat(s[1..]) as int)
    else if IsDigits(s) then Some(ParseNat(s))
    else None
  }

  /** The form JavaScript prints: "0", or digits with no leading zero after an optional minus sign. */
  predicate Canonical(s: string) {
    s == "0" || (|s| >= 1 && s[0] != '0' && (s[0] == '-' ==> |s| >= 2 && s[1] != '0'))
  }

  /** `String(n)` for an integral JavaScript number below 10^21 in magnitude. */
  function FromInt(n: int): (r: string)
    ensures Parse(r) == Some(n)
    ensures Canonical(r)
    ensures |r| >= 1 && r != "-"
  {
    if n < 0 then
      var digits := NatToString(-n);
      assert ("-" + digits)[1..] == digits;
      "-" + digits
    else NatToString(n)
  }

  function Pow10(k: nat): (p: nat)
    ensures p >= 1
  {
    if k == 0 then 1 else 10 * Pow10(k - 1)
  }

  /** A digit string of length k is below 10^k, and at least 10^(k-1) when it has no leading zero. */
  lemma {:induction false} ParseNatBounds(s: string)
    requires IsDigits(s)
    ensures ParseNat(s) < Pow10(|s|)
    ensures s[0] != '0' ==> ParseNat(s) >= Pow10(|s| - 1)
    decreases |s|
  {
    if |s| > 1 {
      var front := s[..|s| - 1];
      assert front[0] == s[0];
      ParseNatBounds(front);
    }
  }

  /** A digit string without a leading zero has a positive value. */
  lemma LeadingDigitNonZero(a: string)
    requires IsDigits(a) && a[0] != '0'
    ensures ParseNat(a) >= 1
  {
    ParseNatBounds(a);
  }

  /** Two digit strings without leading zeros that have the same value have the same length. */
  lemma SameValueSameLength(a: string, b: string)
    requires IsDigits(a) && IsDigits(b) && a[0] != '0' && b[0] != '0'
    requires ParseNat(a) == ParseNat(b)
    ensures |a| == |b|
  {
    ParseNatBounds(a);
    ParseNatBounds(b);
  }

  /** Splitting `x * 10 + d` with a digit `d` is unique. */
  lemma LastDigitUnique(x: nat, d: nat, y: nat, e: nat)
    requires d < 10 && e < 10 && x * 10 + d == y * 10 + e
    ensures x == y && d == e
  {
  }

  /** Two digit strings without leading zeros that have the same value are equal. */
  lemma {:induction false} ParseNatInjective(a: string, b: string)
    requires IsDigits(a) && IsDigits(b) && a[0] != '0' && b[0] != '0'
    requires ParseNat(a) == ParseNat(b)
    ensures a == b
    decreases |a|
  {
    SameValueSameLength(a, b);
    if |a| == 1 {
      assert DigitChar(DigitValue(a[0])) == a[0] && DigitChar(DigitValue(b[0])) == b[0];
    } else {
      var fa, fb := a[..|a| - 1], b[..|b| - 1];
      LastDigitUnique(ParseNat(fa), DigitValue(a[|a| - 1]), ParseNat(fb), DigitValue(b[|b| - 1]));
      assert fa[0] == a[0] && fb[0] == b[0];
      ParseNatInjective(fa, fb);
      assert DigitChar(DigitValue(a[|a| - 1])) == a[|a| - 1];
      assert DigitChar(DigitValue(b[|b| - 1])) == b[|b| - 1];
      assert a == fa + [a[|a| - 1]] && b == fb + [b[|b| - 1]];
    }
  }

  /**
   * The printed form is determined by the number: a canonical string that
   * parses to `n` is `FromInt(n)`, so no other spelling ("007", "-0") can
   * stand for it.
   */
  lemma CanonicalIsUnique(s: string, n: int)
    requires Canonical(s) && Parse(s) == Some(n)
    ensures s == FromInt(n)
  {
    var r := FromInt(n);
    if s == "0" {
    } else if s[0] == '-' {
      LeadingDigitNonZero(s[1..]);
      assert n < 0;
      assert r == "-" + NatToString(-n);
      assert r[1..] == NatToString(-n);
      ParseNatInjective(s[1..], r[1..]);
      assert s == [s[0]] + s[1..] && r == [r[0]] + r[1..];
    } else {
      LeadingDigitNonZero(s);
      ParseNatInjective(s, r);
    }
  }
}

=== FILE: dist_broker.dfy ===
/**
 * The `PubSub` broker of the compiled package, as a state machine over
 * values. Its state is the message log, the subscriber `Set` (one wait
 * subscriber per pending `waitForMessage` call, in insertion order) and,
 * per call, the closure state of that wait: its pred, its options,
 * whether its `setTimeout` timer is still armed, and its promise.
 *
 * The timer is not a clock: `Fire(id)` is the event "the timer of wait
 * `id` elapses". A timer cleared by `clearTimeout` never fires.
 */
module DistBroker {
  import opened Wrappers
  import opened OrderedSet
  import opened Promise
  import opened Json
  import Decimal

  /** Identifies one `waitForMessage` call: its subscriber closure, timer and promise. */
  type WaitId = nat

  /** The `timeout` and `timeoutMessage` fields of the options record. */
  datatype WaitOptions = WaitOptions(timeout: int, timeoutMessage: Option<string>)

  datatype Waiter<!M> = Waiter(
    pred: M -> bool,
    options: WaitOptions,
    timerArmed: bool,
    outcome: Outcome<M>)

  datatype State<!M> = State(
    messages: seq<M>,
    subscribers: seq<WaitId>,
    waiters: map<WaitId, Waiter<M>>,
    nextId: WaitId)

  const TimeoutPrefix := "Timeout waiting for message after "

  /**
   * The rejection text: `timeoutMessage` when it is a non-empty string,
   * otherwise a default that states the timeout in milliseconds.
   */
  function TimeoutReason(options: WaitOptions): (reason: string)
    ensures options.timeoutMessage.Some? && options.timeoutMessage.value != "" ==>
      reason == options.timeoutMessage.value
    ensures options.timeoutMessage.None? || options.timeoutMessage.value == "" ==>
      && |reason| > |TimeoutPrefix| + 2
      && reason[..|TimeoutPrefix|] == TimeoutPrefix
      && reason[|reason| - 2..] == "ms"
      && Decimal.Parse(reason[|TimeoutPrefix|..|reason| - 2]) == Some(options.timeout)
      && Decimal.Canonical(reason[|TimeoutPrefix|..|reason| - 2])
  {
    var digits := Decimal.FromInt(options.timeout);
    var default := TimeoutPrefix + digits + "ms";
    assert default[|TimeoutPrefix|..|default| - 2] == digits;
    StringOr(options.timeoutMessage, default)
  }

  /**
   * The broker invariant. The subscriber set holds exactly the pending
   * waits, each once; a wait's timer is armed exactly while it is pending.
   * So a settled wait is cleaned up: no subscriber and no timer left.
   */
  ghost predicate Valid<M>(s: State<M>) {
    && Distinct(s.subscribers)
    && (forall id :: id in s.subscribers ==> id in s.waiters)
    && (forall id :: id in s.waiters ==> id < s.nextId)
    && (forall id :: id in s.waiters ==>
          && (id in s.subscribers <==> s.waiters[id].outcome.Pending?)
          && (s.waiters[id].timerArmed <==> s.waiters[id].outcome.Pending?))
  }

  /** A new broker: empty log, no subscribers. */
  function Init<M>(): (s: State<M>)
    ensures Valid(s) && s.messages == [] && s.subscribers == []
  {
    State([], [], map[], 0)
  }

  /** The wait settled by message `m`: `clearTimeout`, then `resolve(message)`. */
  function Matched<M>(w: Waiter<M>, m: M): (r: Waiter<M>)
    ensures !r.timerArmed && r.pred == w.pred && r.options == w.options
    ensures w.outcome.Pending? ==> r.outcome == Resolved(m)
    ensures !w.outcome.Pending? ==> r.outcome == w.outcome
  {
    w.(timerArmed := false, outcome := Resolve(w.outcome, m))
  }

  /**
   * One call of the subscriber closure of wait `id` with message `m`, made
   * only while it is still in the set: on a match it clears its timer,
   * deletes itself and resolves; otherwise nothing changes.
   */
  function Notify<M>(s: State<M>, id: WaitId, m: M): (r: State<M>)
    ensures r.messages == s.messages && r.nextId == s.nextId && r.waiters.Keys == s.waiters.Keys
    ensures forall other :: other != id ==> (other in r.subscribers <==> other in s.subscribers)
    ensures forall other :: other in s.waiters && other != id ==> r.waiters[other] == s.waiters[other]
    ensures id in s.subscribers && id in s.waiters && s.waiters[id].pred(m) ==>
      && id !in r.subscribers
      && r.waiters[id] == Matched(s.waiters[id], m)
    ensures !(id in s.subscribers && id in s.waiters && s.waiters[id].pred(m)) ==> r == s
  {
    if id in s.subscribers && id in s.waiters && s.waiters[id].pred(m) then
      s.(subscribers := Remove(s.subscribers, id),
         waiters := s.waiters[id := Matched(s.waiters[id], m)])
    else s
  }

  /** `forEach` over the subscribers listed in `pass`, in order. */
  function Deliver<M>(s: State<M>, pass: seq<WaitId>, m: M): State<M>
    decreases |pass|
  {
    if pass == [] then s
    else Notify(Deliver(s, pass[..|pass| - 1], m), pass[|pass| - 1], m)
  }

  /** `publish(message)`: push onto the log, then notify the current subscribers. */
  function Publish<M>(s: State<M>, m: M): (r: State<M>)
    ensures r.messages == s.messages + [m]
    ensures r.nextId == s.nextId && r.waiters.Keys == s.waiters.Keys
  {
    var s0 := s.(messages := s.messages + [m]);
    DeliverFrame(s0, s.subscribers, m);
    Deliver(s0, s.subscribers, m)
  }

  /** `waitForMessage(pred, options)`: arm a timer and add a fresh subscriber. */
  function WaitForMessage<M>(s: State<M>, pred: M -> bool, options: WaitOptions): (r: (State<M>, WaitId))
    ensures r.1 in r.0.waiters && r.1 in r.0.subscribers
    ensures r.0.waiters[r.1] == Waiter(pred, options, true, Pending)
    ensures r.0.messages == s.messages
    ensures Valid(s) ==> r.1 !in s.waiters
    ensures Valid(s) ==> forall id :: id in s.waiters ==> id in r.0.waiters && r.0.waiters[id] == s.waiters[id]
    ensures Valid(s) ==> Valid(r.0)
  {
    var id := s.nextId;
    (s.(subscribers := Add(s.subscribers, id),
        waiters := s.waiters[id := Waiter(pred, options, true, Pending)],
        nextId := id + 1),
     id)
  }

  /** The timer of wait `id` elapses: if still armed, delete the subscriber and reject. */
  function Fire<M>(s: State<M>, id: WaitId): (r: State<M>)
    ensures r.messages == s.messages && r.waiters.Keys == s.waiters.Keys
    ensures forall other :: other in s.waiters && other != id ==> r.waiters[other] == s.waiters[other]
    ensures forall other :: other != id ==> (other in r.subscribers <==> other in s.subscribers)
    ensures id in s.waiters && s.waiters[id].timerArmed ==>
      id !in r.subscribers && !r.waiters[id].timerArmed && !r.waiters[id].outcome.Pending?
    ensures Valid(s) ==> Valid(r)
  {
    if id in s.waiters && s.waiters[id].timerArmed then
      var w := s.waiters[id];
      s.(subscribers := Remove(s.subscribers, id),
         waiters := s.waiters[id := w.(timerArmed := false,
                                       outcome := Reject(w.outcome, TimeoutReason(w.options)))])
    else s
  }

  // ---------------------------------------------------------------------------
  // Delivery: what one notification pass does

  /** Extending a pass by one subscriber is one more call of `Notify`. */
  lemma DeliverOneMore<M>(s: State<M>, pass: seq<WaitId>, i: nat, m: M)
    requires i < |pass|
    ensures Deliver(s, pass[..i + 1], m) == Notify(Deliver(s, pass[..i], m), pass[i], m)
  {
    assert pass[..i + 1][..i] == pass[..i];
  }

  /** A pass never touches the log, the id counter or the set of waits, and only shrinks the subscriber set. */
  lemma {:induction false} DeliverFrame<M>(s: State<M>, pass: seq<WaitId>, m: M)
    ensures var r := Deliver(s, pass, m);
      && r.messages == s.messages
      && r.nextId == s.nextId
      && r.waiters.Keys == s.waiters.Keys
      && (forall id :: id in r.subscribers ==> id in s.subscribers)
      && (Distinct(s.subscribers) ==> Distinct(r.subscribers))
    decreases |pass|
  {
    if pass != [] {
      DeliverFrame(s, pass[..|pass| - 1], m);
    }
  }

  /**
   * Over a pass without repeats, wait `id` is settled exactly when it is in
   * the pass, still subscribed and its pred holds; every other wait is
   * left as it was.
   */
  lemma {:induction false} DeliverAt<M>(s: State<M>, pass: seq<WaitId>, m: M, id: WaitId)
    requires Distinct(pass) && id in s.waiters
    ensures var r := Deliver(s, pass, m);
      var hit := id in pass && id in s.subscribers && s.waiters[id].pred(m);
      && id in r.waiters
      && r.waiters[id] == (if hit then Matched(s.waiters[id], m) else s.waiters[id])
      && (id in r.subscribers <==> id in s.subscribers && !hit)
    decreases |pass|
  {
    if pass != [] {
      var front := pass[..|pass| - 1];
      var last := pass[|pass| - 1];
      assert Distinct(front);
      assert id in pass <==> id in front || id == last;
      assert id == last ==> id !in front;
      DeliverFrame(s, front, m);
      DeliverAt(s, front, m, id);
    }
  }

  // ---------------------------------------------------------------------------
  // The invariant is kept by every operation

  lemma PublishKeepsValid<M>(s: State<M>, m: M)
    requires Valid(s)
    ensures Valid(Publish(s, m))
  {
    var s0 := s.(messages := s.messages + [m]);
    var r := Publish(s, m);
    DeliverFrame(s0, s.subscribers, m);
    forall id | id in r.waiters
      ensures (id in r.subscribers <==> r.waiters[id].outcome.Pending?)
      ensures (r.waiters[id].timerArmed <==> r.waiters[id].outcome.Pending?)
    {
      DeliverAt(s0, s.subscribers, m, id);
    }
  }

  // ---------------------------------------------------------------------------
  // One publish, one wait

  /** A message its pred rejects leaves a wait exactly as it was: pending and subscribed. */
  lemma PublishNonMatching<M>(s: State<M>, m: M, id: WaitId)
    requires Valid(s) && id in s.waiters && !s.waiters[id].pred(m)
    ensures id in Publish(s, m).waiters && Publish(s, m).waiters[id] == s.waiters[id]
    ensures id in Publish(s, m).subscribers <==> id in s.subscribers
  {
    DeliverAt(s.(messages := s.messages + [m]), s.subscribers, m, id);
  }

  /**
   * A matching message settles a pending wait: its timer is cleared, its
   * subscriber is deleted and it resolves with exactly that message.
   */
  lemma PublishMatching<M>(s: State<M>, m: M, id: WaitId)
    requires Valid(s) && id in s.waiters && s.waiters[id].outcome.Pending?
    requires s.waiters[id].pred(m)
    ensures var r := Publish(s, m);
      && id in r.waiters && id !in r.subscribers
      && !r.waiters[id].timerArmed
      && r.waiters[id].outcome == Resolved(m)
  {
    DeliverAt(s.(messages := s.messages + [m]), s.subscribers, m, id);
  }

  /**
   * The timer of a pending wait deletes its subscriber and rejects it with
   * the timeout text; the timer of any other wait is a no-op for it.
   */
  lemma FireRejects<M>(s: State<M>, id: WaitId)
    requires Valid(s) && id in s.waiters && s.waiters[id].outcome.Pending?
    ensures var r := Fire(s, id);
      && id !in r.subscribers && !r.waiters[id].timerArmed
      && r.waiters[id].outcome == Rejected(TimeoutReason(s.waiters[id].options))
  {
  }

  // ---------------------------------------------------------------------------
  // Traces of events

  datatype Event<!M> =
    | PublishEvent(message: M)
    | WaitEvent(pred: M -> bool, options: WaitOptions)
    | FireEvent(id: WaitId)

  function Step<M>(s: State<M>, e: Event<M>): State<M> {
    match e
    case PublishEvent(m) => Publish(s, m)
    case WaitEvent(p, o) => WaitForMessage(s, p, o).0
    case FireEvent(id) => Fire(s, id)
  }

  function Run<M>(s: State<M>, events: seq<Event<M>>): State<M>
    decreases |events|
  {
    if events == [] then s else Run(Step(s, events[0]), events[1..])
  }

  /** The messages of the publish events, in order. */
  function Published<M>(events: seq<Event<M>>): seq<M>
    decreases |events|
  {
    if events == [] then []
    else (if events[0].PublishEvent? then [events[0].message] else []) + Published(events[1..])
  }

  lemma StepKeepsValid<M>(s: State<M>, e: Event<M>)
    requires Valid(s)
    ensures Valid(Step(s, e))
  {
    match e
    case PublishEvent(m) => PublishKeepsValid(s, m);
    case WaitEvent(_, _) =>
    case FireEvent(_) =>
  }

  /**
   * The invariant holds after any trace; in particular every settled wait
   * has been cleaned up, with no subscriber and no armed timer left.
   */
  lemma {:induction false} RunKeepsValid<M>(s: State<M>, events: seq<Event<M>>)
    requires Valid(s)
    ensures Valid(Run(s, events))
    ensures forall id :: id in Run(s, events).waiters && !Run(s, events).waiters[id].outcome.Pending? ==>
      id !in Run(s, events).subscribers && !Run(s, events).waiters[id].timerArmed
    decreases |events|
  {
    if events != [] {
      StepKeepsValid(s, events[0]);
      RunKeepsValid(Step(s, events[0]), events[1..]);
    }
  }

  /** The log only grows: after any trace it is the old log followed by the published messages. */
  lemma {:induction false} LogIsAppendOnly<M>(s: State<M>, events: seq<Event<M>>)
    ensures Run(s, events).messages == s.messages + Published(events)
    decreases |events|
  {
    if events != [] {
      var e := events[0];
      LogIsAppendOnly(Step(s, e), events[1..]);
    }
  }

  /** Every step keeps the waits that exist, with the same pred and options. */
  lemma StepKeepsWait<M>(s: State<M>, e: Event<M>, id: WaitId)
    requires Valid(s) && id in s.waiters
    ensures id in Step(s, e).waiters
    ensures Step(s, e).waiters[id].pred == s.waiters[id].pred
    ensures Step(s, e).waiters[id].options == s.waiters[id].options
  {
    if e.PublishEvent? {
      DeliverAt(s.(messages := s.messages + [e.message]), s.subscribers, e.message, id);
    }
  }

  /** A settled outcome never changes again, whatever is published or fires later. */
  lemma {:induction false} SettledStaysSettled<M>(s: State<M>, events: seq<Event<M>>, id: WaitId)
    requires Valid(s) && id in s.waiters && !s.waiters[id].outcome.Pending?
    ensures id in Run(s, events).waiters
    ensures Run(s, events).waiters[id].outcome == s.waiters[id].outcome
    decreases |events|
  {
    if events != [] {
      var e := events[0];
      StepKeepsValid(s, e);
      StepKeepsWait(s, e, id);
      if e.PublishEvent? {
        DeliverAt(s.(messages := s.messages + [e.message]), s.subscribers, e.message, id);
      }
      SettledStaysSettled(Step(s, e), events[1..], id);
    }
  }

  /**
   * Reference semantics of one wait over the events that follow it: the
   * first publish of a message its pred accepts resolves it, its own
   * timer rejects it, whichever comes first; otherwise it stays pending.
   */
  function Decide<M>(id: WaitId, pred: M -> bool, options: WaitOptions, events: seq<Event<M>>): (r: Outcome<M>)
    ensures r.Resolved? ==> pred(r.value) && PublishEvent(r.value) in events
    ensures r.Rejected? ==> r.reason == TimeoutReason(options) && FireEvent(id) in events
    decreases |events|
  {
    if events == [] then Pending
    else match events[0]
      case PublishEvent(m) =>
        if pred(m) then Resolved(m) else Decide(id, pred, options, events[1..])
      case WaitEvent(_, _) => Decide(id, pred, options, events[1..])
      case FireEvent(t) =>
        if t == id then Rejected(TimeoutReason(options)) else Decide(id, pred, options, events[1..])
  }

  /**
   * The broker implements the reference semantics: a pending wait settles
   * once, by the first of a matching message and its own timeout.
   */
  lemma {:induction false} WaitSettlesByFirstEvent<M>(s: State<M>, events: seq<Event<M>>, id: WaitId)
    requires Valid(s) && id in s.waiters && s.waiters[id].outcome.Pending?
    ensures id in Run(s, events).waiters
    ensures Run(s, events).waiters[id].outcome ==
      Decide(id, s.waiters[id].pred, s.waiters[id].options, events)
    decreases |events|
  {
    if events != [] {
      var e := events[0];
      var w := s.waiters[id];
      var s1 := Step(s, e);
      StepKeepsValid(s, e);
      StepKeepsWait(s, e, id);
      match e
      case PublishEvent(m) =>
        if w.pred(m) {
          PublishMatching(s, m, id);
          SettledStaysSettled(s1, events[1..], id);
        } else {
          PublishNonMatching(s, m, id);
          WaitSettlesByFirstEvent(s1, events[1..], id);
        }
      case WaitEvent(_, _) =>
        WaitSettlesByFirstEvent(s1, events[1..], id);
      case FireEvent(t) =>
        if t == id {
          FireRejects(s, id);
          SettledStaysSettled(s1, events[1..], id);
        } else {
          WaitSettlesByFirstEvent(s1, events[1..], id);
        }
    }
  }

  /**
   * No replay: a new wait is never settled by a message already in the log.
   * Right after the call it is pending; after any later trace its outcome is
   * `Decide` for the caller's own pred and options, so whatever it resolves
   * with is an accepted message of a publish event that follows the call.
   */
  lemma NoReplay<M>(s: State<M>, pred: M -> bool, options: WaitOptions, events: seq<Event<M>>)
    requires Valid(s)
    ensures var (s1, id) := WaitForMessage(s, pred, options);
      && id !in s.waiters
      && s1.waiters[id].outcome.Pending?
      && id in Run(s1, events).waiters
      && var o := Run(s1, events).waiters[id].outcome;
         && o == Decide(id, pred, options, events)
         && (o.Resolved? ==> pred(o.value) && PublishEvent(o.value) in events)
  {
    var (s1, id) := WaitForMessage(s, pred, options);
    WaitSettlesByFirstEvent(s1, events, id);
  }
}

=== FILE: dist_fixtures.dfy ===
/**
 * The `waitForMessage` functions of the `ga`, `facebook` and `dataLayer`
 * fixtures of the compiled package. Each turns its options record into one
 * predicate, or throws a configuration error, and only then hands the
 * predicate to the fixture's broker. A field is present when the record has
 * that key (JavaScript's `'predicate' in options`).
 */
module DistFixtures {
  import opened Wrappers
  import opened Json
  import opened Matchers
  import DistBroker
  import DistPubSub

  /** Options of the `ga` and `facebook` fixtures, whose messages are flattened request URLs. */
  datatype HitWaitOptions = HitWaitOptions(
    timeout: int,
    timeoutMessage: Option<string>,
    pred: Option<string -> bool>,
    regex: Option<Regex>)

  /** Options of the `dataLayer` fixture, whose messages are the objects pushed by the page. */
  datatype DataLayerWaitOptions = DataLayerWaitOptions(
    timeout: int,
    timeoutMessage: Option<string>,
    pred: Option<Json -> bool>,
    matchObject: Option<Json>,
    matchZodObject: Option<Schema>)

  const HitOptionsError := "Invalid options for waitForMessage: requires 'predicate' or 'regex'."

  const DataLayerOptionsError :=
    "Invalid options for waitForMessage: requires 'predicate', 'matchObject', or 'matchZodObject'."

  /**
   * The dispatcher of the `ga` and `facebook` fixtures: `predicate` wins over
   * `regex`; with neither it throws.
   */
  function HitPredicate(options: HitWaitOptions): (r: Result<string -> bool, string>)
    ensures r.Failure? <==> options.pred.None? && options.regex.None?
    ensures r.Failure? ==> r.error == HitOptionsError
    ensures options.pred.Some? ==> r == Success(options.pred.value)
    ensures options.pred.None? && options.regex.Some? ==>
      r.Success? && forall url :: r.value(url) == options.regex.value.test(url)
  {
    if options.pred.Some? then Success(options.pred.value)
    else if options.regex.Some? then
      var re := options.regex.value;
      Success((url: string) => re.test(url))
    else Failure(HitOptionsError)
  }

  /**
   * The dispatcher of the `dataLayer` fixture: `predicate`, then
   * `matchObject`, then `matchZodObject`; with none of them it throws. A
   * `toMatchObject` failure, thrown or not, is a plain "no match".
   */
  function DataLayerPredicate(options: DataLayerWaitOptions): (r: Result<Json -> bool, string>)
    ensures r.Failure? <==> options.pred.None? && options.matchObject.None? && options.matchZodObject.None?
    ensures r.Failure? ==> r.error == DataLayerOptionsError
    ensures options.pred.Some? ==> r == Success(options.pred.value)
    ensures options.pred.None? && options.matchObject.Some? ==>
      r.Success? && forall m :: r.value(m) == ToMatchObject(m, options.matchObject.value)
    ensures options.pred.None? && options.matchObject.None? && options.matchZodObject.Some? ==>
      r.Success? && forall m :: r.value(m) == options.matchZodObject.value.safeParseSucceeds(m)
  {
    if options.pred.Some? then Success(options.pred.value)
    else if options.matchObject.Some? then
      var template := options.matchObject.value;
      Success((m: Json) => ToMatchObject(m, template))
    else if options.matchZodObject.Some? then
      var schema := options.matchZodObject.value;
      Success((m: Json) => schema.safeParseSucceeds(m))
    else Failure(DataLayerOptionsError)
  }

  /**
   * `waitForMessage(options)` of the `ga` and `facebook` fixtures. Invalid
   * options throw before any subscriber or timer exists; otherwise the
   * broker starts the wait with the chosen predicate.
   */
  method HitWaitForMessage(broker: DistPubSub.PubSub<string>, options: HitWaitOptions)
    returns (r: Result<DistBroker.WaitId, string>)
    requires broker.Valid()
    modifies broker
    ensures broker.Valid()
    ensures r.Failure? <==> HitPredicate(options).Failure?
    ensures r.Failure? ==> r.error == HitOptionsError && broker.Snapshot() == old(broker.Snapshot())
    ensures r.Success? ==>
      (broker.Snapshot(), r.value) ==
      DistBroker.WaitForMessage(old(broker.Snapshot()), HitPredicate(options).value,
                                DistBroker.WaitOptions(options.timeout, options.timeoutMessage))
  {
    var chosen := HitPredicate(options);
    if chosen.Failure? {
      return Failure(chosen.error);
    }
    var id := broker.WaitForMessage(chosen.value, DistBroker.WaitOptions(options.timeout, options.timeoutMessage));
    r := Success(id);
  }

  /** `waitForMessage(options)` of the `dataLayer` fixture. */
  method DataLayerWaitForMessage(broker: DistPubSub.PubSub<Json>, options: DataLayerWaitOptions)
    returns (r: Result<DistBroker.WaitId, string>)
    requires broker.Valid()
    modifies broker
    ensures broker.Valid()
    ensures r.Failure? <==> DataLayerPredicate(options).Failure?
    ensures r.Failure? ==> r.error == DataLayerOptionsError && broker.Snapshot() == old(broker.Snapshot())
    ensures r.Success? ==>
      (broker.Snapshot(), r.value) ==
      DistBroker.WaitForMessage(old(broker.Snapshot()), DataLayerPredicate(options).value,
                                DistBroker.WaitOptions(options.timeout, options.timeoutMessage))
  {
    var chosen := DataLayerPredicate(options);
    if chosen.Failure? {
      return Failure(chosen.error);
    }
    var id := broker.WaitForMessage(chosen.value, DistBroker.WaitOptions(options.timeout, options.timeoutMessage));
    r := Success(id);
  }
}

=== FILE: dist_pubsub.dfy ===
/**
 * The `PubSub` class of the compiled package, with its state updated in
 * place. Each method is proved to perform the corresponding transition of
 * `DistBroker`, whose properties are proved there.
 */
module DistPubSub {
  import opened OrderedSet
  import opened Promise
  import DistBroker

  type WaitId = DistBroker.WaitId

  class PubSub<!M> {
    /** The message log, `messages`. */
    var messages: seq<M>
    /** The `subscribers` Set: one wait subscriber per pending wait, in insertion order. */
    var subscribers: seq<WaitId>
    /** The closure state of every `waitForMessage` call made on this broker. */
    var waiters: map<WaitId, DistBroker.Waiter<M>>
    var nextId: WaitId

    function Snapshot(): DistBroker.State<M>
      reads this
    {
      DistBroker.State(messages, subscribers, waiters, nextId)
    }

    ghost predicate Valid()
      reads this
    {
      DistBroker.Valid(Snapshot())
    }

    constructor ()
      ensures Valid() && Snapshot() == DistBroker.Init()
    {
      messages := [];
      subscribers := [];
      waiters := map[];
      nextId := 0;
    }

    /**
     * `publish(message)`: push the message, then call every subscriber of the
     * set, once each and in insertion order, with that message. `notified`
     * lists the subscribers called.
     */
    method Publish(message: M) returns (notified: seq<WaitId>)
      requires Valid()
      modifies this
      ensures Valid()
      ensures Snapshot() == DistBroker.Publish(old(Snapshot()), message)
      ensures messages == old(messages) + [message]
      ensures notified == old(subscribers)
    {
      ghost var start := old(Snapshot()).(messages := old(messages) + [message]);
      messages := messages + [message];
      var pass := subscribers;
      notified := [];
      var i := 0;
      assert pass[..0] == [];
      assert Snapshot() == start;
      while i < |pass|
        invariant 0 <= i <= |pass|
        invariant Distinct(pass)
        invariant Snapshot() == DistBroker.Deliver(start, pass[..i], message)
        invariant notified == pass[..i]
        invariant forall j :: i <= j < |pass| ==> pass[j] in subscribers
        invariant forall id :: id in subscribers ==> id in waiters
      {
        var id := pass[i];
        ghost var before := Snapshot();
        // Set.prototype.forEach visits only entries still in the set
        if id in subscribers {
          notified := notified + [id];
          CallSubscriber(id, message);
        }
        assert Snapshot() == DistBroker.Notify(before, id, message);
        DistBroker.DeliverOneMore(start, pass, i, message);
        i := i + 1;
      }
      assert pass[..|pass|] == pass;
      DistBroker.DeliverFrame(start, pass, message);
      DistBroker.PublishKeepsValid(old(Snapshot()), message);
    }

    /**
     * The subscriber closure of wait `id`, called with `message`: on a match
     * it clears its timer, deletes itself from the set and resolves.
     */
    method CallSubscriber(id: WaitId, message: M)
      requires id in subscribers
      requires forall x :: x in subscribers ==> x in waiters
      modifies this
      ensures Snapshot() == DistBroker.Notify(old(Snapshot()), id, message)
      ensures forall x :: x in subscribers ==> x in waiters
    {
      var w := waiters[id];
      if w.pred(message) {
        // clearTimeout(timeoutId); subscribers.delete(subscriber); resolve(message)
        subscribers := Remove(subscribers, id);
        waiters := waiters[id := w.(timerArmed := false, outcome := Resolve(w.outcome, message))];
      }
    }

    /**
     * `waitForMessage(predicate, options)`: arms the timer and adds a fresh
     * subscriber. The returned id stands for the promise; its outcome is
     * `waiters[id].outcome`.
     */
    method WaitForMessage(pred: M -> bool, options: DistBroker.WaitOptions) returns (id: WaitId)
      requires Valid()
      modifies this
      ensures Valid()
      ensures (Snapshot(), id) == DistBroker.WaitForMessage(old(Snapshot()), pred, options)
      ensures id !in old(waiters) && id in subscribers && waiters[id].outcome == Pending
      ensures messages == old(messages)
    {
      id := nextId;
      waiters := waiters[id := DistBroker.Waiter(pred, options, true, Pending)];
      subscribers := Add(subscribers, id);
      nextId := nextId + 1;
    }

    /**
     * The timer of wait `id` elapses. A cleared or already fired timer does
     * nothing; an armed one deletes the subscriber and rejects the promise.
     */
    method Fire(id: WaitId)
      requires Valid()
      modifies this
      ensures Valid()
      ensures Snapshot() == DistBroker.Fire(old(Snapshot()), id)
      ensures messages == old(messages)
    {
      if id in waiters && waiters[id].timerArmed {
        var w := waiters[id];
        subscribers := Remove(subscribers, id);
        waiters := waiters[id := w.(timerArmed := false,
                                    outcome := Reject(w.outcome, DistBroker.TimeoutReason(w.options)))];
      }
    }
  }
}

=== FILE: json.dfy ===
/**
 * Message values. A hit broker publishes strings (flattened request URLs);
 * the dataLayer broker publishes the plain objects pushed by the page. Both
 * shapes are JSON-like values here; an object is its list of properties in
 * insertion order.
 */
module Json {
  import opened Wrappers
  import Decimal

  datatype Json =
    | JNull
    | JBool(b: bool)
    | JNumber(n: int)
    | JString(s: string)
    | JArray(items: seq<Json>)
    | JObject(fields: seq<(string, Json)>)

  /** A JavaScript object has each property name once, at every depth. */
  ghost predicate WellFormed(j: Json)
    decreases j
  {
    match j
    case JArray(items) => forall i :: 0 <= i < |items| ==> WellFormed(items[i])
    case JObject(fields) =>
      && (forall i, k :: 0 <= i < k < |fields| ==> fields[i].0 != fields[k].0)
      && (forall i :: 0 <= i < |fields| ==> WellFormed(fields[i].1))
    case _ => true
  }

  /** Property lookup: the value of the first property named `key`. */
  function Get(fields: seq<(string, Json)>, key: string): (r: Option<Json>)
    ensures r.Some? <==> exists i :: 0 <= i < |fields| && fields[i].0 == key
    ensures r.Some? ==> (key, r.value) in fields
  {
    if fields == [] then None
    else if fields[0].0 == key then Some(fields[0].1)
    else
      var r := Get(fields[1..], key);
      assert forall i :: 1 <= i < |fields| ==> fields[i] == fields[1..][i - 1];
      r
  }

  /** In an object without repeated names, lookup finds the one property with that name. */
  lemma {:induction false} GetFindsProperty(fields: seq<(string, Json)>, i: nat)
    requires i < |fields|
    requires forall a, b :: 0 <= a < b < |fields| ==> fields[a].0 != fields[b].0
    ensures Get(fields, fields[i].0) == Some(fields[i].1)
  {
    if i > 0 {
      assert fields[0].0 != fields[i].0;
      assert fields[1..][i - 1] == fields[i];
      GetFindsProperty(fields[1..], i - 1);
    }
  }

  /**
   * `String(value)`: what `RegExp.prototype.test` sees when handed a message.
   * Arrays join their elements with commas (null elements print as empty),
   * plain objects print as "[object Object]".
   */
  function JsString(j: Json): (r: string)
    ensures j.JString? ==> r == j.s
    decreases j, 1, 0
  {
    match j
    case JNull => "null"
    case JBool(b) => if b then "true" else "false"
    case JNumber(n) => Decimal.FromInt(n)
    case JString(s) => s
    case JArray(items) => JoinItems(j, |items|)
    case JObject(_) => "[object Object]"
  }

  /** `Array.prototype.join(",")` over the first `n` elements of an array. */
  function JoinItems(arr: Json, n: nat): string
    requires arr.JArray? && n <= |arr.items|
    decreases arr, 0, n
  {
    if n == 0 then ""
    else
      var last := arr.items[n - 1];
      var text := if last.JNull? then "" else JsString(last);
      if n == 1 then text else JoinItems(arr, n - 1) + "," + text
  }

  /**
   * JavaScript's `text || fallback` for an optional string: `undefined` and
   * the empty string are falsy, so both give the fallback.
   */
  function StringOr(text: Option<string>, fallback: string): (r: string)
    ensures text.Some? && text.value != "" ==> r == text.value
    ensures text.None? || text.value == "" ==> r == fallback
  {
    if text.Some? && text.value != "" then text.value else fallback
  }
}

=== FILE: matchers.dfy ===
/**
 * The tests a wait can apply to a message. Regular expressions and zod
 * schemas are foreign code: each is represented by the boolean test it
 * performs and nothing more. `ToMatchObject` gives Playwright's
 * `expect(received).toMatchObject(expected)` a concrete definition, which is
 * an APPROXIMATION of that matcher over JSON-like values (see `Subset`).
 */
module Matchers {
  import opened Wrappers
  import opened Json

  /** A `RegExp`, known only by the outcome of its `test` method. */
  datatype Regex = Regex(test: string -> bool)

  /** A zod schema, known only by whether `safeParse(message).success` holds. */
  datatype Schema = Schema(safeParseSucceeds: Json -> bool)

  /**
   * Recursive subset equality, as the matcher compares values: every
   * property of an expected object must be present in the received object
   * and match recursively (extra received properties are ignored); arrays
   * must have the same length and match element by element; anything else
   * must be equal. Not modelled: `undefined`, `NaN`, dates, class instances,
   * asymmetric matchers, and an object template matched key by key against
   * a received array.
   */
  function Subset(received: Json, expected: Json): bool
    decreases expected
  {
    match expected
    case JObject(want) =>
      && received.JObject?
      && forall i :: 0 <= i < |want| ==>
           var got := Get(received.fields, want[i].0);
           got.Some? && Subset(got.value, want[i].1)
    case JArray(want) =>
      && received.JArray?
      && |received.items| == |want|
      && forall i :: 0 <= i < |want| ==> Subset(received.items[i], want[i])
    case _ => received == expected
  }

  /** A non-null object (arrays included), the only kind of value the matcher accepts. */
  predicate IsObjectLike(j: Json) {
    j.JObject? || j.JArray?
  }

  /**
   * `expect(received).toMatchObject(expected)` where a thrown error counts as
   * "no match": the matcher throws when either side is not an object, and
   * fails when the subset comparison fails.
   */
  function ToMatchObject(received: Json, expected: Json): (r: bool)
    ensures r ==> IsObjectLike(received) && IsObjectLike(expected)
  {
    IsObjectLike(received) && IsObjectLike(expected) && Subset(received, expected)
  }

  /**
   * Every well-formed value contains itself, so an object or array message
   * matches itself as a template.
   */
  lemma {:induction false} SubsetReflexive(j: Json)
    requires WellFormed(j)
    ensures Subset(j, j)
    ensures IsObjectLike(j) ==> ToMatchObject(j, j)
    decreases j
  {
    match j
    case JObject(fields) =>
      forall i | 0 <= i < |fields|
        ensures Get(fields, fields[i].0) == Some(fields[i].1)
        ensures Subset(fields[i].1, fields[i].1)
      {
        GetFindsProperty(fields, i);
        SubsetReflexive(fields[i].1);
      }
    case JArray(items) =>
      forall i | 0 <= i < |items| ensures Subset(items[i], items[i]) {
        SubsetReflexive(items[i]);
      }
    case _ =>
  }

  /**
   * A received object matches any template made of some of its own
   * properties: properties the template does not mention are ignored.
   */
  lemma ExtraPropertiesIgnored(received: seq<(string, Json)>, template: seq<(string, Json)>)
    requires WellFormed(JObject(received))
    requires forall f :: f in template ==> f in received
    ensures ToMatchObject(JObject(received), JObject(template))
  {
    forall i | 0 <= i < |template|
      ensures Get(received, template[i].0) == Some(template[i].1)
      ensures Subset(template[i].1, template[i].1)
    {
      assert template[i] in received;
      var k :| 0 <= k < |received| && received[k] == template[i];
      GetFindsProperty(received, k);
      SubsetReflexive(received[k].1);
    }
  }

  /**
   * Matching is transitive: a message that matches a template also matches
   * every template that the first one matches.
   */
  lemma {:induction false} SubsetTransitive(a: Json, b: Json, c: Json)
    requires Subset(a, b) && Subset(b, c)
    ensures Subset(a, c)
    decreases c
  {
    match c
    case JObject(want) =>
      forall i | 0 <= i < |want|
        ensures Get(a.fields, want[i].0).Some? && Subset(Get(a.fields, want[i].0).value, want[i].1)
      {
        var inB := Get(b.fields, want[i].0);
        assert inB.Some? && Subset(inB.value, want[i].1);
        var k :| 0 <= k < |b.fields| && b.fields[k].0 == want[i].0;
        assert Get(b.fields, b.fields[k].0) == inB;
        SubsetAtFirst(a, b, want[i].0);
        SubsetTransitive(Get(a.fields, want[i].0).value, inB.value, want[i].1);
      }
    case JArray(want) =>
      forall i | 0 <= i < |want| ensures Subset(a.items[i], want[i]) {
        SubsetTransitive(a.items[i], b.items[i], want[i]);
      }
    case _ =>
  }

  /** If `a` contains object `b`, every property of `b` is found in `a` with a containing value. */
  lemma SubsetAtFirst(a: Json, b: Json, key: string)
    requires b.JObject? && Subset(a, b) && Get(b.fields, key).Some?
    ensures Get(a.fields, key).Some? && Subset(Get(a.fields, key).value, Get(b.fields, key).value)
  {
    var i := FirstIndex(b.fields, key);
    assert Subset(a, b);
    var got := Get(a.fields, b.fields[i].0);
    assert got.Some? && Subset(got.value, b.fields[i].1);
  }

  /** The position of the property that lookup finds. */
  function FirstIndex(fields: seq<(string, Json)>, key: string): (i: nat)
    requires Get(fields, key).Some?
    ensures i < |fields| && fields[i].0 == key && Get(fields, key) == Some(fields[i].1)
  {
    if fields[0].0 == key then 0 else 1 + FirstIndex(fields[1..], key)
  }
}

=== FILE: ordered_set.dfy ===
/**
 * A JavaScript `Set` as the brokers use it: a collection without duplicates
 * whose iteration order is insertion order. It is represented by a sequence
 * in which no element occurs twice.
 */
module OrderedSet {

  /** No element occurs twice. */
  ghost predicate Distinct<T>(s: seq<T>) {
    forall i, j :: 0 <= i < j < |s| ==> s[i] != s[j]
  }

  /**
   * `Set.prototype.add`: an element already present keeps its place, a new
   * element is placed after all others.
   */
  function Add<T(==,!new)>(s: seq<T>, x: T): (r: seq<T>)
    ensures forall y :: y in r <==> y in s || y == x
    ensures |s| <= |r| <= |s| + 1 && r[..|s|] == s
    ensures Distinct(s) ==> Distinct(r)
  {
    if x in s then s else s + [x]
  }

  /**
   * `Set.prototype.delete`: removes the element if present and is a no-op
   * otherwise; the other elements keep their relative order.
   */
  function Remove<T(==,!new)>(s: seq<T>, x: T): (r: seq<T>)
    ensures forall y :: y in r <==> y in s && y != x
    ensures x !in s ==> r == s
    ensures |r| <= |s|
    ensures Distinct(s) ==> Distinct(r)
  {
    if s == [] then []
    else if s[0] == x then Remove(s[1..], x)
    else
      var rest := Remove(s[1..], x);
      assert Distinct(s) ==> s[0] !in s[1..] && Distinct(s[1..]);
      assert Distinct(s) ==> s[0] !in rest;
      [s[0]] + rest
  }

  /** In a sequence without duplicates every element is counted once. */
  lemma {:induction false} DistinctCountsOnce<T>(s: seq<T>, x: T)
    requires Distinct(s) && x in s
    ensures multiset(s)[x] == 1
  {
    if s[0] == x {
      assert x !in s[1..];
      assert s == [s[0]] + s[1..];
    } else {
      DistinctCountsOnce(s[1..], x);
      assert s == [s[0]] + s[1..];
    }
  }

  /** Adding the same element twice leaves a single entry for it. */
  lemma AddTwiceSingleEntry<T(!new)>(s: seq<T>, x: T)
    requires Distinct(s)
    ensures Add(Add(s, x), x) == Add(s, x)
    ensures multiset(Add(Add(s, x), x))[x] == 1
  {
    DistinctCountsOnce(Add(s, x), x);
  }

  /**
   * Deleting the element at position `i` of a sequence without duplicates
   * splices it out: every other element keeps its relative order.
   */
  lemma {:induction false} RemoveSplices<T(!new)>(s: seq<T>, i: nat)
    requires Distinct(s) && i < |s|
    ensures Remove(s, s[i]) == s[..i] + s[i + 1..]
  {
    if i == 0 {
      assert s[i] !in s[1..];
    } else {
      assert s[1..][i - 1] == s[i];
      RemoveSplices(s[1..], i - 1);
      assert s[1..][..i - 1] == s[1..i];
      assert s[1..][i - 1 + 1..] == s[i + 1..];
      assert s[..i] == [s[0]] + s[1..i];
    }
  }
}

=== FILE: promise.dfy ===
/**
 * The settle-once behaviour of a JavaScript `Promise`: the first call of
 * `resolve` or `reject` decides the outcome, every later call is ignored.
 */
module Promise {

  datatype Outcome<T> = Pending | Resolved(value: T) | Rejected(reason: string)

  /** A call of the executor's `resolve` or `reject` function. */
  datatype Settlement<T> = Resolution(value: T) | Rejection(reason: string)

  /** The effect of one call of `resolve` or `reject` on the promise. */
  function Settle<T>(o: Outcome<T>, s: Settlement<T>): (r: Outcome<T>)
    ensures !r.Pending?
    ensures !o.Pending? ==> r == o
    ensures o.Pending? && s.Resolution? ==> r == Resolved(s.value)
    ensures o.Pending? && s.Rejection? ==> r == Rejected(s.reason)
  {
    if !o.Pending? then o
    else match s
      case Resolution(v) => Resolved(v)
      case Rejection(why) => Rejected(why)
  }

  /** The executor's `resolve(v)`: fulfils a pending promise, is ignored by a settled one. */
  function Resolve<T>(o: Outcome<T>, v: T): (r: Outcome<T>)
    ensures o.Pending? ==> r == Resolved(v)
    ensures !o.Pending? ==> r == o
  {
    Settle(o, Resolution(v))
  }

  /** The executor's `reject(why)`: rejects a pending promise, is ignored by a settled one. */
  function Reject<T>(o: Outcome<T>, why: string): (r: Outcome<T>)
    ensures o.Pending? ==> r == Rejected(why)
    ensures !o.Pending? ==> r == o
  {
    Settle(o, Rejection(why))
  }

  /** The outcome after a series of `resolve`/`reject` calls. */
  function SettleAll<T>(o: Outcome<T>, calls: seq<Settlement<T>>): Outcome<T>
    decreases |calls|
  {
    if calls == [] then o else SettleAll(Settle(o, calls[0]), calls[1..])
  }

  /** A settled promise ignores every later call. */
  lemma {:induction false} SettledIsFinal<T>(o: Outcome<T>, calls: seq<Settlement<T>>)
    requires !o.Pending?
    ensures SettleAll(o, calls) == o
  {
    if calls != [] {
      SettledIsFinal(Settle(o, calls[0]), calls[1..]);
    }
  }

  /** A pending promise takes the outcome of the first call, whatever follows it. */
  lemma FirstCallWins<T>(calls: seq<Settlement<T>>)
    requires calls != []
    ensures SettleAll(Pending, calls) == Settle(Pending, calls[0])
    ensures calls[0].Resolution? ==> SettleAll(Pending, calls) == Resolved(calls[0].value)
    ensures calls[0].Rejection? ==> SettleAll(Pending, calls) == Rejected(calls[0].reason)
  {
    SettledIsFinal(Settle(Pending, calls[0]), calls[1..]);
  }
}

=== FILE: scenarios.dfy ===
/**
 * End-to-end runs of the brokers on small concrete inputs: the log after a
 * publish, a regex wait that skips a non-matching URL, an object wait that
 * times out, an object wait resolved by a message with extra properties,
 * two independent waits, and the TypeScript broker's stale subscriber.
 */
module Scenarios {
  import opened Wrappers
  import opened Promise
  import opened Json
  import opened Matchers
  import Decimal
  import DistBroker
  import DistFixtures
  import SrcBroker

  /** A new broker that publishes "a" has the log ["a"]. */
  lemma LogAfterOnePublish()
    ensures DistBroker.Publish(DistBroker.Init<string>(), "a").messages == ["a"]
  {
  }

  /**
   * A regex wait stays pending through a URL the regex rejects and resolves
   * with the next URL it accepts.
   */
  lemma RegexWaitSkipsThenResolves(re: Regex)
    requires !re.test("bar") && re.test("foobar")
    ensures var chosen := DistFixtures.HitPredicate(DistFixtures.HitWaitOptions(1000, None, None, Some(re)));
      && chosen.Success?
      && var (s1, id) := DistBroker.WaitForMessage(DistBroker.Init(), chosen.value, DistBroker.WaitOptions(1000, None));
         var s2 := DistBroker.Publish(s1, "bar");
         && id in s2.waiters && s2.waiters[id].outcome == Pending && id in s2.subscribers
         && DistBroker.Publish(s2, "foobar").waiters[id].outcome == Resolved("foobar")
  {
    var chosen := DistFixtures.HitPredicate(DistFixtures.HitWaitOptions(1000, None, None, Some(re)));
    var (s1, id) := DistBroker.WaitForMessage(DistBroker.Init(), chosen.value, DistBroker.WaitOptions(1000, None));
    DistBroker.PublishNonMatching(s1, "bar", id);
    var s2 := DistBroker.Publish(s1, "bar");
    DistBroker.PublishKeepsValid(s1, "bar");
    DistBroker.PublishMatching(s2, "foobar", id);
  }

  const StatusOk := JObject([("status", JString("ok"))])

  /**
   * An object wait whose timer fires before any message rejects with the
   * default text stating the timeout; the TypeScript broker rejects the
   * same wait with "timeout".
   */
  lemma ObjectWaitTimesOut()
    ensures var chosen := DistFixtures.DataLayerPredicate(DistFixtures.DataLayerWaitOptions(10, None, None, Some(StatusOk), None));
      && chosen.Success?
      && var (s1, id) := DistBroker.WaitForMessage(DistBroker.Init(), chosen.value, DistBroker.WaitOptions(10, None));
         DistBroker.Fire(s1, id).waiters[id].outcome == Rejected("Timeout waiting for message after 10ms")
    ensures var (s1, id) := SrcBroker.WaitForMessage(SrcBroker.Init(), SrcBroker.WaitConfig(10, None, None, Some(StatusOk), None, None));
      SrcBroker.Fire(s1, id).waiters[id].outcome == Rejected("timeout")
  {
    assert Decimal.FromInt(10) == "10";
  }

  /** A message with more properties than the template still matches it, and resolves the wait with the whole message. */
  lemma ObjectWaitIgnoresExtraProperties()
    ensures var template := JObject([("a", JNumber(1))]);
      var message := JObject([("a", JNumber(1)), ("b", JNumber(2))]);
      var chosen := DistFixtures.DataLayerPredicate(DistFixtures.DataLayerWaitOptions(1000, None, None, Some(template), None));
      && chosen.Success?
      && var (s1, id) := DistBroker.WaitForMessage(DistBroker.Init(), chosen.value, DistBroker.WaitOptions(1000, None));
         DistBroker.Publish(s1, message).waiters[id].outcome == Resolved(message)
  {
    var template := JObject([("a", JNumber(1))]);
    var message := JObject([("a", JNumber(1)), ("b", JNumber(2))]);
    var chosen := DistFixtures.DataLayerPredicate(DistFixtures.DataLayerWaitOptions(1000, None, None, Some(template), None));
    assert WellFormed(message);
    ExtraPropertiesIgnored(message.fields, template.fields);
    var (s1, id) := DistBroker.WaitForMessage(DistBroker.Init(), chosen.value, DistBroker.WaitOptions(1000, None));
    DistBroker.PublishMatching(s1, message, id);
  }

  /**
   * Two waits on one broker are independent: a message that only the first
   * accepts resolves the first and leaves the second pending and subscribed.
   */
  lemma IndependentWaits<M>(s: DistBroker.State<M>, p1: M -> bool, p2: M -> bool, o: DistBroker.WaitOptions, m: M)
    requires DistBroker.Valid(s) && p1(m) && !p2(m)
    ensures var (s1, id1) := DistBroker.WaitForMessage(s, p1, o);
      var (s2, id2) := DistBroker.WaitForMessage(s1, p2, o);
      var r := DistBroker.Publish(s2, m);
      && id1 != id2 && id1 in r.waiters && id2 in r.waiters
      && r.waiters[id1].outcome == Resolved(m) && id1 !in r.subscribers
      && r.waiters[id2].outcome == Pending && id2 in r.subscribers
  {
    var (s1, id1) := DistBroker.WaitForMessage(s, p1, o);
    var (s2, id2) := DistBroker.WaitForMessage(s1, p2, o);
    DistBroker.PublishMatching(s2, m, id1);
    DistBroker.PublishNonMatching(s2, m, id2);
  }

  /**
   * In the TypeScript broker a wait whose timer fired keeps its subscriber;
   * the next message it accepts removes the subscriber and the wait stays
   * rejected.
   */
  lemma StaleSubscriberAfterTimeout(config: SrcBroker.WaitConfig, m: Json)
    requires SrcBroker.Accepts(config, m)
    ensures var (s1, id) := SrcBroker.WaitForMessage(SrcBroker.Init(), config);
      var s2 := SrcBroker.Fire(s1, id);
      var s3 := SrcBroker.Publish(s2, m);
      && SrcBroker.WaitSubscriber(id) in s2.subscribers
      && id in s3.waiters && SrcBroker.WaitSubscriber(id) !in s3.subscribers
      && s3.waiters[id].outcome == Rejected(SrcBroker.TimeoutReason(config))
  {
    var (s1, id) := SrcBroker.WaitForMessage(SrcBroker.Init(), config);
    SrcBroker.FireRejectsAndKeepsSubscriber(s1, id);
    var s2 := SrcBroker.Fire(s1, id);
    SrcBroker.LateMatchAfterTimeout(s2, m, id);
  }

  /** In the TypeScript broker a config with no policy field is resolved by the next message, whatever it is. */
  lemma EmptyConfigResolvesOnNextMessage(timeout: int, m: Json)
    ensures var (s1, id) := SrcBroker.WaitForMessage(SrcBroker.Init(), SrcBroker.WaitConfig(timeout, None, None, None, None, None));
      id in SrcBroker.Publish(s1, m).waiters && SrcBroker.Publish(s1, m).waiters[id].outcome == Resolved(m)
  {
    var config := SrcBroker.WaitConfig(timeout, None, None, None, None, None);
    var (s1, id) := SrcBroker.WaitForMessage(SrcBroker.Init(), config);
    SrcBroker.PublishMatching(s1, m, id);
  }
}

=== FILE: src_broker.dfy ===
/**
 * The `PubSub` broker of the TypeScript sources, as a state machine over
 * values. Unlike the compiled package it has public `subscribe` and
 * `unsubscribe`, decides matches inline from the config, never clears its
 * timer, and leaves a timed-out subscriber registered until a later
 * matching message removes it.
 *
 * Messages are JSON-like values: a GA hit is a `JString`, a dataLayer
 * entry a `JObject`. The subscriber set holds wait subscribers (closures
 * created by `waitForMessage`) and callbacks registered by consumers, whose
 * bodies are foreign code and are not modelled beyond being called.
 */
module SrcBroker {
  import opened Wrappers
  import opened OrderedSet
  import opened Promise
  import opened Json
  import opened Matchers

  type WaitId = nat

  datatype Subscriber = WaitSubscriber(id: WaitId) | Callback(ref: nat)

  /** The config record; a field is present when the record has that key. */
  datatype WaitConfig = WaitConfig(
    timeout: int,
    timeoutMessage: Option<string>,
    pred: Option<Json -> bool>,
    matchObject: Option<Json>,
    matchZodObject: Option<Schema>,
    regex: Option<Regex>)

  /**
   * The match decision of a wait subscriber: the first present field of
   * `predicate`, `matchObject`, `matchZodObject`, `regex` decides; a thrown
   * `toMatchObject` error is a plain "no match"; with none of them present
   * every message matches.
   */
  function Accepts(config: WaitConfig, m: Json): (r: bool)
    ensures config.pred.Some? ==> (r <==> config.pred.value(m))
    ensures config.pred.None? && config.matchObject.Some? ==>
      (r <==> ToMatchObject(m, config.matchObject.value))
    ensures config.pred.None? && config.matchObject.None? && config.matchZodObject.Some? ==>
      (r <==> config.matchZodObject.value.safeParseSucceeds(m))
    ensures config.pred.None? && config.matchObject.None? && config.matchZodObject.None? && config.regex.Some? ==>
      (r <==> config.regex.value.test(JsString(m)))
    ensures config.pred.None? && config.matchObject.None? && config.matchZodObject.None? && config.regex.None? ==> r
  {
    if config.pred.Some? then config.pred.value(m)
    else if config.matchObject.Some? then ToMatchObject(m, config.matchObject.value)
    else if config.matchZodObject.Some? then config.matchZodObject.value.safeParseSucceeds(m)
    else if config.regex.Some? then config.regex.value.test(JsString(m))
    else true
  }

  /** The rejection value: `timeoutMessage` when it is a non-empty string, otherwise "timeout". */
  function TimeoutReason(config: WaitConfig): (reason: string)
    ensures reason != ""
    ensures config.timeoutMessage.Some? && config.timeoutMessage.value != "" ==> reason == config.timeoutMessage.value
    ensures config.timeoutMessage.None? || config.timeoutMessage.value == "" ==> reason == "timeout"
  {
    StringOr(config.timeoutMessage, "timeout")
  }

  datatype Waiter = Waiter(config: WaitConfig, timerArmed: bool, outcome: Outcome<Json>)

  datatype State = State(
    messages: seq<Json>,
    subscribers: seq<Subscriber>,
    waiters: map<WaitId, Waiter>,
    nextId: WaitId)

  /**
   * The broker invariant. A pending wait is subscribed and its timer is
   * armed; a resolved wait has unsubscribed; a rejected wait's timer has
   * fired, and its subscriber may still be registered.
   */
  ghost predicate Valid(s: State) {
    && Distinct(s.subscribers)
    && (forall sub :: sub in s.subscribers && sub.WaitSubscriber? ==> sub.id in s.waiters)
    && (forall id :: id in s.waiters ==> id < s.nextId)
    && (forall id :: id in s.waiters ==>
          && (s.waiters[id].outcome.Pending? ==> WaitSubscriber(id) in s.subscribers && s.waiters[id].timerArmed)
          && (s.waiters[id].outcome.Resolved? ==> WaitSubscriber(id) !in s.subscribers)
          && (s.waiters[id].outcome.Rejected? ==> !s.waiters[id].timerArmed))
  }

  function Init(): (s: State)
    ensures Valid(s) && s.messages == [] && s.subscribers == []
  {
    State([], [], map[], 0)
  }

  /** `subscribe(callback)`: `Set.prototype.add`. */
  function Subscribe(s: State, ref: nat): (r: State)
    ensures forall sub :: sub in r.subscribers <==> sub in s.subscribers || sub == Callback(ref)
    ensures |r.subscribers| >= |s.subscribers| && r.subscribers[..|s.subscribers|] == s.subscribers
    ensures r.messages == s.messages && r.waiters == s.waiters
  {
    s.(subscribers := Add(s.subscribers, Callback(ref)))
  }

  /** `unsubscribe(callback)`: `Set.prototype.delete`. */
  function Unsubscribe(s: State, ref: nat): (r: State)
    ensures forall sub :: sub in r.subscribers <==> sub in s.subscribers && sub != Callback(ref)
    ensures Callback(ref) !in s.subscribers ==> r == s
    ensures r.messages == s.messages && r.waiters == s.waiters
  {
    s.(subscribers := Remove(s.subscribers, Callback(ref)))
  }

  /** The wait settled by message `m`: `this.unsubscribe(subscriber)` then `resolve(message)`. */
  function Matched(w: Waiter, m: Json): (r: Waiter)
    ensures r.timerArmed == w.timerArmed && r.config == w.config
    ensures w.outcome.Pending? ==> r.outcome == Resolved(m)
    ensures !w.outcome.Pending? ==> r.outcome == w.outcome
  {
    w.(outcome := Resolve(w.outcome, m))
  }

  /**
   * One call of `sub` with message `m`, made only while `sub` is still in
   * the set. A consumer's callback changes nothing here; a wait subscriber
   * that accepts `m` unsubscribes itself and resolves its promise (which
   * does nothing to an already rejected promise).
   */
  function Notify(s: State, sub: Subscriber, m: Json): (r: State)
    ensures r.messages == s.messages && r.nextId == s.nextId && r.waiters.Keys == s.waiters.Keys
    ensures forall other :: other != sub ==> (other in r.subscribers <==> other in s.subscribers)
    ensures sub.Callback? ==> r == s
    ensures sub.WaitSubscriber? ==>
      forall other :: other in s.waiters && other != sub.id ==> r.waiters[other] == s.waiters[other]
    ensures sub.WaitSubscriber? && sub in s.subscribers && sub.id in s.waiters && Accepts(s.waiters[sub.id].config, m) ==>
      && sub !in r.subscribers
      && r.waiters[sub.id] == Matched(s.waiters[sub.id], m)
    ensures !(sub.WaitSubscriber? && sub in s.subscribers && sub.id in s.waiters && Accepts(s.waiters[sub.id].config, m)) ==>
      r == s
  {
    if sub in s.subscribers && sub.WaitSubscriber? && sub.id in s.waiters
       && Accepts(s.waiters[sub.id].config, m) then
      s.(subscribers := Remove(s.subscribers, sub),
         waiters := s.waiters[sub.id := Matched(s.waiters[sub.id], m)])
    else s
  }

  /** `for (const subscriber of this.subscribers)` over the subscribers listed in `pass`. */
  function Deliver(s: State, pass: seq<Subscriber>, m: Json): State
    decreases |pass|
  {
    if pass == [] then s
    else Notify(Deliver(s, pass[..|pass| - 1], m), pass[|pass| - 1], m)
  }

  /** `publish(message)`: push onto the log, then call every subscriber. */
  function Publish(s: State, m: Json): (r: State)
    ensures r.messages == s.messages + [m]
    ensures r.nextId == s.nextId && r.waiters.Keys == s.waiters.Keys
  {
    var s0 := s.(messages := s.messages + [m]);
    DeliverFrame(s0, s.subscribers, m);
    Deliver(s0, s.subscribers, m)
  }

  /** `waitForMessage(config)`: arm a timer and subscribe a fresh wait subscriber. */
  function WaitForMessage(s: State, config: WaitConfig): (r: (State, WaitId))
    ensures r.1 in r.0.waiters && WaitSubscriber(r.1) in r.0.subscribers
    ensures r.0.waiters[r.1] == Waiter(config, true, Pending)
    ensures r.0.messages == s.messages
    ensures Valid(s) ==> r.1 !in s.waiters
    ensures Valid(s) ==> forall id :: id in s.waiters ==> id in r.0.waiters && r.0.waiters[id] == s.waiters[id]
    ensures Valid(s) ==> Valid(r.0)
  {
    var id := s.nextId;
    (s.(subscribers := Add(s.subscribers, WaitSubscriber(id)),
        waiters := s.waiters[id := Waiter(config, true, Pending)],
        nextId := id + 1),
     id)
  }

  /** The timer of wait `id` elapses: it rejects the promise and leaves the subscriber in place. */
  function Fire(s: State, id: WaitId): (r: State)
    ensures r.messages == s.messages && r.subscribers == s.subscribers && r.waiters.Keys == s.waiters.Keys
    ensures forall other :: other in s.waiters && other != id ==> r.waiters[other] == s.waiters[other]
    ensures id in s.waiters && s.waiters[id].timerArmed ==>
      !r.waiters[id].timerArmed && !r.waiters[id].outcome.Pending?
    ensures Valid(s) ==> Valid(r)
  {
    if id in s.waiters && s.waiters[id].timerArmed then
      var w := s.waiters[id];
      s.(waiters := s.waiters[id := w.(timerArmed := false,
                                       outcome := Reject(w.outcome, TimeoutReason(w.config)))])
    else s
  }

  // ---------------------------------------------------------------------------
  // Delivery

  lemma DeliverOneMore(s: State, pass: seq<Subscriber>, i: nat, m: Json)
    requires i < |pass|
    ensures Deliver(s, pass[..i + 1], m) == Notify(Deliver(s, pass[..i], m), pass[i], m)
  {
    assert pass[..i + 1][..i] == pass[..i];
  }

  /**
   * A pass never touches the log, the id counter or the set of waits, never
   * removes a consumer's callback, and only shrinks the subscriber set.
   */
  lemma {:induction false} DeliverFrame(s: State, pass: seq<Subscriber>, m: Json)
    ensures var r := Deliver(s, pass, m);
      && r.messages == s.messages
      && r.nextId == s.nextId
      && r.waiters.Keys == s.waiters.Keys
      && (forall sub :: sub in r.subscribers ==> sub in s.subscribers)
      && (forall ref :: Callback(ref) in r.subscribers <==> Callback(ref) in s.subscribers)
      && (Distinct(s.subscribers) ==> Distinct(r.subscribers))
    decreases |pass|
  {
    if pass != [] {
      DeliverFrame(s, pass[..|pass| - 1], m);
    }
  }

  /**
   * Over a pass without repeats, wait `id` is resolved by `m` exactly when
   * its subscriber is in the pass, still subscribed and accepts `m`.
   */
  lemma {:induction false} DeliverAt(s: State, pass: seq<Subscriber>, m: Json, id: WaitId)
    requires Distinct(pass) && id in s.waiters
    ensures var r := Deliver(s, pass, m);
      var sub := WaitSubscriber(id);
      var hit := sub in pass && sub in s.subscribers && Accepts(s.waiters[id].config, m);
      && id in r.waiters
      && r.waiters[id] == (if hit then Matched(s.waiters[id], m) else s.waiters[id])
      && (sub in r.subscribers <==> sub in s.subscribers && !hit)
    decreases |pass|
  {
    if pass != [] {
      var front := pass[..|pass| - 1];
      var last := pass[|pass| - 1];
      var sub := WaitSubscriber(id);
      assert Distinct(front);
      assert sub in pass <==> sub in front || sub == last;
      assert sub == last ==> sub !in front;
      DeliverFrame(s, front, m);
      DeliverAt(s, front, m, id);
    }
  }

  // ---------------------------------------------------------------------------
  // The invariant is kept by every operation

  lemma PublishKeepsValid(s: State, m: Json)
    requires Valid(s)
    ensures Valid(Publish(s, m))
  {
    var s0 := s.(messages := s.messages + [m]);
    var r := Publish(s, m);
    DeliverFrame(s0, s.subscribers, m);
    forall id | id in r.waiters
      ensures r.waiters[id].outcome.Pending? ==> WaitSubscriber(id) in r.subscribers && r.waiters[id].timerArmed
      ensures r.waiters[id].outcome.Resolved? ==> WaitSubscriber(id) !in r.subscribers
      ensures r.waiters[id].outcome.Rejected? ==> !r.waiters[id].timerArmed
    {
      DeliverAt(s0, s.subscribers, m, id);
    }
  }

  lemma SubscribeKeepsValid(s: State, ref: nat)
    requires Valid(s)
    ensures Valid(Subscribe(s, ref))
  {
  }

  lemma UnsubscribeKeepsValid(s: State, ref: nat)
    requires Valid(s)
    ensures Valid(Unsubscribe(s, ref))
  {
  }

  // ---------------------------------------------------------------------------
  // Subscribing and unsubscribing

  /** Subscribing the same callback twice leaves one entry, in its first place. */
  lemma SubscribeTwice(s: State, ref: nat)
    requires Valid(s)
    ensures Subscribe(Subscribe(s, ref), ref) == Subscribe(s, ref)
    ensures multiset(Subscribe(s, ref).subscribers)[Callback(ref)] == 1
    ensures Callback(ref) in s.subscribers ==> Subscribe(s, ref) == s
  {
    AddTwiceSingleEntry(s.subscribers, Callback(ref));
  }

  /**
   * Unsubscribing removes only that callback, keeping the others in order;
   * a callback that is not subscribed makes it a no-op.
   */
  lemma UnsubscribeRemovesOnly(s: State, ref: nat)
    requires Valid(s)
    ensures Callback(ref) !in Unsubscribe(s, ref).subscribers
    ensures forall sub :: sub != Callback(ref) ==>
      (sub in Unsubscribe(s, ref).subscribers <==> sub in s.subscribers)
    ensures Callback(ref) !in s.subscribers ==> Unsubscribe(s, ref) == s
    ensures forall i :: 0 <= i < |s.subscribers| && s.subscribers[i] == Callback(ref) ==>
      Unsubscribe(s, ref).subscribers == s.subscribers[..i] + s.subscribers[i + 1..]
  {
    forall i | 0 <= i < |s.subscribers| && s.subscribers[i] == Callback(ref)
      ensures Unsubscribe(s, ref).subscribers == s.subscribers[..i] + s.subscribers[i + 1..]
    {
      RemoveSplices(s.subscribers, i);
    }
  }

  // ---------------------------------------------------------------------------
  // One publish, one wait

  /** `publish` calls consumers' callbacks but never unsubscribes one. */
  lemma PublishKeepsCallbacks(s: State, m: Json, ref: nat)
    ensures Callback(ref) in Publish(s, m).subscribers <==> Callback(ref) in s.subscribers
  {
    DeliverFrame(s.(messages := s.messages + [m]), s.subscribers, m);
  }

  /** A message the config rejects leaves the wait exactly as it was and still subscribed. */
  lemma PublishNonMatching(s: State, m: Json, id: WaitId)
    requires Valid(s) && id in s.waiters && !Accepts(s.waiters[id].config, m)
    ensures id in Publish(s, m).waiters && Publish(s, m).waiters[id] == s.waiters[id]
    ensures WaitSubscriber(id) in Publish(s, m).subscribers <==> WaitSubscriber(id) in s.subscribers
  {
    DeliverAt(s.(messages := s.messages + [m]), s.subscribers, m, id);
  }

  /** A matching message unsubscribes a pending wait and resolves it with exactly that message. */
  lemma PublishMatching(s: State, m: Json, id: WaitId)
    requires Valid(s) && id in s.waiters && s.waiters[id].outcome.Pending?
    requires Accepts(s.waiters[id].config, m)
    ensures var r := Publish(s, m);
      id in r.waiters && WaitSubscriber(id) !in r.subscribers && r.waiters[id].outcome == Resolved(m)
  {
    DeliverAt(s.(messages := s.messages + [m]), s.subscribers, m, id);
  }

  /**
   * The timer is never cleared: it rejects a pending wait and leaves its
   * subscriber registered.
   */
  lemma FireRejectsAndKeepsSubscriber(s: State, id: WaitId)
    requires Valid(s) && id in s.waiters && s.waiters[id].outcome.Pending?
    ensures var r := Fire(s, id);
      && WaitSubscriber(id) in r.subscribers
      && r.waiters[id].outcome == Rejected(TimeoutReason(s.waiters[id].config))
  {
  }

  /**
   * A late match after the timeout removes the stale subscriber but leaves
   * the rejection in place.
   */
  lemma LateMatchAfterTimeout(s: State, m: Json, id: WaitId)
    requires Valid(s) && id in s.waiters && s.waiters[id].outcome.Rejected?
    requires WaitSubscriber(id) in s.subscribers && Accepts(s.waiters[id].config, m)
    ensures var r := Publish(s, m);
      && id in r.waiters
      && WaitSubscriber(id) !in r.subscribers
      && r.waiters[id].outcome == s.waiters[id].outcome
  {
    DeliverAt(s.(messages := s.messages + [m]), s.subscribers, m, id);
  }

  /** A resolved promise cannot be rejected: a later timer only disarms itself. */
  lemma FireAfterResolve(s: State, id: WaitId)
    requires Valid(s) && id in s.waiters && s.waiters[id].outcome.Resolved?
    ensures Fire(s, id).waiters[id].outcome == s.waiters[id].outcome
    ensures !Fire(s, id).waiters[id].timerArmed
  {
  }

  // ---------------------------------------------------------------------------
  // Traces of events

  datatype Event =
    | PublishEvent(message: Json)
    | WaitEvent(config: WaitConfig)
    | FireEvent(id: WaitId)
    | SubscribeEvent(ref: nat)
    | UnsubscribeEvent(ref: nat)

  function Step(s: State, e: Event): State {
    match e
    case PublishEvent(m) => Publish(s, m)
    case WaitEvent(c) => WaitForMessage(s, c).0
    case FireEvent(id) => Fire(s, id)
    case SubscribeEvent(ref) => Subscribe(s, ref)
    case UnsubscribeEvent(ref) => Unsubscribe(s, ref)
  }

  function Run(s: State, events: seq<Event>): State
    decreases |events|
  {
    if events == [] then s else Run(Step(s, events[0]), events[1..])
  }

  function Published(events: seq<Event>): seq<Json>
    decreases |events|
  {
    if events == [] then []
    else (if events[0].PublishEvent? then [events[0].message] else []) + Published(events[1..])
  }

  lemma StepKeepsValid(s: State, e: Event)
    requires Valid(s)
    ensures Valid(Step(s, e))
  {
    match e
    case PublishEvent(m) => PublishKeepsValid(s, m);
    case WaitEvent(_) =>
    case FireEvent(_) =>
    case SubscribeEvent(ref) => SubscribeKeepsValid(s, ref);
    case UnsubscribeEvent(ref) => UnsubscribeKeepsValid(s, ref);
  }

  /** The invariant holds after any trace: a resolved wait never stays subscribed. */
  lemma {:induction false} RunKeepsValid(s: State, events: seq<Event>)
    requires Valid(s)
    ensures Valid(Run(s, events))
    ensures forall id :: id in Run(s, events).waiters && Run(s, events).waiters[id].outcome.Resolved? ==>
      WaitSubscriber(id) !in Run(s, events).subscribers
    decreases |events|
  {
    if events != [] {
      StepKeepsValid(s, events[0]);
      RunKeepsValid(Step(s, events[0]), events[1..]);
    }
  }

  /** The log only grows: after any trace it is the old log followed by the published messages. */
  lemma {:induction false} LogIsAppendOnly(s: State, events: seq<Event>)
    ensures Run(s, events).messages == s.messages + Published(events)
    decreases |events|
  {
    if events != [] {
      var e := events[0];
      if e.PublishEvent? {
        assert Published(events) == [e.message] + Published(events[1..]);
      } else {
        assert Step(s, e).messages == s.messages;
        assert Published(events) == Published(events[1..]);
      }
      LogIsAppendOnly(Step(s, e), events[1..]);
    }
  }

  lemma StepKeepsWait(s: State, e: Event, id: WaitId)
    requires Valid(s) && id in s.waiters
    ensures id in Step(s, e).waiters
    ensures Step(s, e).waiters[id].config == s.waiters[id].config
  {
    if e.PublishEvent? {
      DeliverAt(s.(messages := s.messages + [e.message]), s.subscribers, e.message, id);
    }
  }

  /** A settled outcome never changes again, whatever is published, subscribed or fires later. */
  lemma {:induction false} SettledStaysSettled(s: State, events: seq<Event>, id: WaitId)
    requires Valid(s) && id in s.waiters && !s.waiters[id].outcome.Pending?
    ensures id in Run(s, events).waiters
    ensures Run(s, events).waiters[id].outcome == s.waiters[id].outcome
    decreases |events|
  {
    if events != [] {
      var e := events[0];
      StepKeepsValid(s, e);
      StepKeepsWait(s, e, id);
      if e.PublishEvent? {
        DeliverAt(s.(messages := s.messages + [e.message]), s.subscribers, e.message, id);
      }
      SettledStaysSettled(Step(s, e), events[1..], id);
    }
  }

  /**
   * Reference semantics of one wait over the events that follow it: the
   * first publish of a message its config accepts resolves it, its own
   * timer rejects it, whichever comes first; otherwise it stays pending.
   */
  function Decide(id: WaitId, config: WaitConfig, events: seq<Event>): (r: Outcome<Json>)
    ensures r.Resolved? ==> Accepts(config, r.value) && PublishEvent(r.value) in events
    ensures r.Rejected? ==> r.reason == TimeoutReason(config) && FireEvent(id) in events
    decreases |events|
  {
    if events == [] then Pending
    else match events[0]
      case PublishEvent(m) =>
        if Accepts(config, m) then Resolved(m) else Decide(id, config, events[1..])
      case FireEvent(t) =>
        if t == id then Rejected(TimeoutReason(config)) else Decide(id, config, events[1..])
      case _ => Decide(id, config, events[1..])
  }

  /**
   * The broker implements the reference semantics: even with a timer that
   * is never cleared and a subscriber that outlives its timeout, a pending
   * wait settles once, by the first of a matching message and its timeout.
   */
  lemma {:induction false} WaitSettlesByFirstEvent(s: State, events: seq<Event>, id: WaitId)
    requires Valid(s) && id in s.waiters && s.waiters[id].outcome.Pending?
    ensures id in Run(s, events).waiters
    ensures Run(s, events).waiters[id].outcome == Decide(id, s.waiters[id].config, events)
    decreases |events|
  {
    if events != [] {
      var e := events[0];
      var w := s.waiters[id];
      var s1 := Step(s, e);
      StepKeepsValid(s, e);
      StepKeepsWait(s, e, id);
      match e
      case PublishEvent(m) =>
        if Accepts(w.config, m) {
          PublishMatching(s, m, id);
          SettledStaysSettled(s1, events[1..], id);
        } else {
          PublishNonMatching(s, m, id);
          WaitSettlesByFirstEvent(s1, events[1..], id);
        }
      case FireEvent(t) =>
        if t == id {
          FireRejectsAndKeepsSubscriber(s, id);
          SettledStaysSettled(s1, events[1..], id);
        } else {
          WaitSettlesByFirstEvent(s1, events[1..], id);
        }
      case _ =>
        WaitSettlesByFirstEvent(s1, events[1..], id);
    }
  }

  /**
   * No replay: only messages published after `waitForMessage` subscribed
   * its subscriber can settle the wait. After any later trace its outcome is
   * `Decide` for the caller's own config: the first accepted message or its
   * own timeout.
   */
  lemma NoReplay(s: State, config: WaitConfig, events: seq<Event>)
    requires Valid(s)
    ensures var (s1, id) := WaitForMessage(s, config);
      && id !in s.waiters
      && s1.waiters[id].outcome.Pending?
      && id in Run(s1, events).waiters
      && var o := Run(s1, events).waiters[id].outcome;
         && o == Decide(id, config, events)
         && (o.Resolved? ==> Accepts(config, o.value) && PublishEvent(o.value) in events)
  {
    var (s1, id) := WaitForMessage(s, config);
    WaitSettlesByFirstEvent(s1, events, id);
  }
}

=== FILE: src_pubsub.dfy ===
/**
 * The `PubSub` class of the TypeScript sources, with its state updated in
 * place. Each method is proved to perform the corresponding transition of
 * `SrcBroker`, whose properties are proved there.
 */
module SrcPubSub {
  import opened OrderedSet
  import opened Promise
  import opened Json
  import SrcBroker

  type WaitId = SrcBroker.WaitId
  type Subscriber = SrcBroker.Subscriber

  class PubSub {
    var messages: seq<Json>
    /** The private `subscribers` Set, in insertion order. */
    var subscribers: seq<Subscriber>
    /** The closure state of every `waitForMessage` call made on this broker. */
    var waiters: map<WaitId, SrcBroker.Waiter>
    var nextId: WaitId

    function Snapshot(): SrcBroker.State
      reads this
    {
      SrcBroker.State(messages, subscribers, waiters, nextId)
    }

    ghost predicate Valid()
      reads this
    {
      SrcBroker.Valid(Snapshot())
    }

    constructor ()
      ensures Valid() && Snapshot() == SrcBroker.Init()
    {
      messages := [];
      subscribers := [];
      waiters := map[];
      nextId := 0;
    }

    /** `subscribe(callback)`: adds the callback unless it is already there. */
    method Subscribe(ref: nat)
      requires Valid()
      modifies this
      ensures Valid()
      ensures Snapshot() == SrcBroker.Subscribe(old(Snapshot()), ref)
      ensures SrcBroker.Callback(ref) in subscribers
    {
      subscribers := Add(subscribers, SrcBroker.Callback(ref));
      SrcBroker.SubscribeKeepsValid(old(Snapshot()), ref);
    }

    /** `unsubscribe(callback)`: removes the callback if present, a no-op otherwise. */
    method Unsubscribe(ref: nat)
      requires Valid()
      modifies this
      ensures Valid()
      ensures Snapshot() == SrcBroker.Unsubscribe(old(Snapshot()), ref)
      ensures SrcBroker.Callback(ref) !in subscribers
    {
      subscribers := Remove(subscribers, SrcBroker.Callback(ref));
      SrcBroker.UnsubscribeKeepsValid(old(Snapshot()), ref);
    }

    /**
     * `publish(message)`: push the message, then call every subscriber of the
     * set, once each and in insertion order. `notified` lists the subscribers
     * called; the consumers' callbacks among them are foreign code.
     */
    method Publish(message: Json) returns (notified: seq<Subscriber>)
      requires Valid()
      modifies this
      ensures Valid()
      ensures Snapshot() == SrcBroker.Publish(old(Snapshot()), message)
      ensures messages == old(messages) + [message]
      ensures notified == old(subscribers)
    {
      ghost var start := old(Snapshot()).(messages := old(messages) + [message]);
      messages := messages + [message];
      var pass := subscribers;
      notified := [];
      var i := 0;
      assert pass[..0] == [];
      assert Snapshot() == start;
      while i < |pass|
        invariant 0 <= i <= |pass|
        invariant Distinct(pass)
        invariant Snapshot() == SrcBroker.Deliver(start, pass[..i], message)
        invariant notified == pass[..i]
        invariant forall j :: i <= j < |pass| ==> pass[j] in subscribers
        invariant forall sub :: sub in subscribers && sub.WaitSubscriber? ==> sub.id in waiters
      {
        var sub := pass[i];
        ghost var before := Snapshot();
        // iteration over a Set visits only entries still in it
        if sub in subscribers {
          notified := notified + [sub];
          CallSubscriber(sub, message);
        }
        assert Snapshot() == SrcBroker.Notify(before, sub, message);
        SrcBroker.DeliverOneMore(start, pass, i, message);
        i := i + 1;
      }
      assert pass[..|pass|] == pass;
      SrcBroker.DeliverFrame(start, pass, message);
      SrcBroker.PublishKeepsValid(old(Snapshot()), message);
    }

    /**
     * A call of subscriber `sub` with `message`. A consumer's callback is
     * foreign code and changes nothing here; a wait subscriber that accepts
     * the message unsubscribes itself and resolves its promise.
     */
    method CallSubscriber(sub: Subscriber, message: Json)
      requires sub in subscribers
      requires forall s :: s in subscribers && s.WaitSubscriber? ==> s.id in waiters
      modifies this
      ensures Snapshot() == SrcBroker.Notify(old(Snapshot()), sub, message)
      ensures forall s :: s in subscribers && s.WaitSubscriber? ==> s.id in waiters
    {
      if sub.WaitSubscriber? {
        var w := waiters[sub.id];
        if SrcBroker.Accepts(w.config, message) {
          // this.unsubscribe(subscriber); resolve(message)
          subscribers := Remove(subscribers, sub);
          waiters := waiters[sub.id := w.(outcome := Resolve(w.outcome, message))];
        }
      }
    }

    /**
     * `waitForMessage(config)`: arms the timer and subscribes a fresh wait
     * subscriber. The returned id stands for the promise.
     */
    method WaitForMessage(config: SrcBroker.WaitConfig) returns (id: WaitId)
      requires Valid()
      modifies this
      ensures Valid()
      ensures (Snapshot(), id) == SrcBroker.WaitForMessage(old(Snapshot()), config)
      ensures id !in old(waiters) && SrcBroker.WaitSubscriber(id) in subscribers && waiters[id].outcome == Pending
      ensures messages == old(messages)
    {
      id := nextId;
      waiters := waiters[id := SrcBroker.Waiter(config, true, Pending)];
      subscribers := Add(subscribers, SrcBroker.WaitSubscriber(id));
      nextId := nextId + 1;
    }

    /** The timer of wait `id` elapses: `reject` is called; the subscriber stays. */
    method Fire(id: WaitId)
      requires Valid()
      modifies this
      ensures Valid()
      ensures Snapshot() == SrcBroker.Fire(old(Snapshot()), id)
      ensures subscribers == old(subscribers) && messages == old(messages)
    {
      if id in waiters && waiters[id].timerArmed {
        var w := waiters[id];
        waiters := waiters[id := w.(timerArmed := false,
                                    outcome := Reject(w.outcome, SrcBroker.TimeoutReason(w.config)))];
      }
    }
  }
}

=== FILE: versions.dfy ===
/**
 * How the two brokers compare: the compiled fixtures choose one predicate
 * up front and throw on an empty options record, while the TypeScript
 * broker tests the config fields inline and treats an empty config as
 * "any message".
 */
module Versions {
  import opened Wrappers
  import opened Json
  import opened Matchers
  import DistBroker
  import DistFixtures
  import SrcBroker

  /** The same dataLayer options, as the TypeScript broker reads them. */
  function DataLayerConfig(o: DistFixtures.DataLayerWaitOptions): SrcBroker.WaitConfig {
    SrcBroker.WaitConfig(o.timeout, o.timeoutMessage, o.pred, o.matchObject, o.matchZodObject, None)
  }

  /** The same hit options, as the TypeScript broker reads them (a hit is a string message). */
  function HitConfig(o: DistFixtures.HitWaitOptions): SrcBroker.WaitConfig {
    var pred: Option<Json -> bool> :=
      if o.pred.Some? then var p := o.pred.value; Some((m: Json) => p(JsString(m))) else None;
    SrcBroker.WaitConfig(o.timeout, o.timeoutMessage, pred, None, None, o.regex)
  }

  /**
   * For dataLayer options the two versions agree on every message whenever
   * the compiled dispatcher accepts the options; where it throws, the
   * TypeScript broker accepts every message instead.
   */
  lemma DataLayerDispatchAgrees(o: DistFixtures.DataLayerWaitOptions, m: Json)
    ensures var chosen := DistFixtures.DataLayerPredicate(o);
      && (chosen.Success? ==> (chosen.value(m) <==> SrcBroker.Accepts(DataLayerConfig(o), m)))
      && (chosen.Failure? ==> SrcBroker.Accepts(DataLayerConfig(o), m))
  {
  }

  /** For hit options the two versions agree on every URL, and both throw-free paths test it the same way. */
  lemma HitDispatchAgrees(o: DistFixtures.HitWaitOptions, url: string)
    ensures var chosen := DistFixtures.HitPredicate(o);
      && (chosen.Success? ==> (chosen.value(url) <==> SrcBroker.Accepts(HitConfig(o), JString(url))))
      && (chosen.Failure? ==> SrcBroker.Accepts(HitConfig(o), JString(url)))
  {
    assert JsString(JString(url)) == url;
    if o.pred.Some? {
      var lifted := HitConfig(o).pred.value;
      assert lifted(JString(url)) == o.pred.value(url);
    }
  }

  /**
   * With a non-empty `timeoutMessage` both versions reject with the same
   * text (the compiled one wraps it in an `Error`, the TypeScript one rejects
   * with the bare string); without one the texts differ: the compiled one
   * states the timeout, the TypeScript one says only "timeout".
   */
  lemma TimeoutTexts(c: SrcBroker.WaitConfig)
    ensures var dist := DistBroker.TimeoutReason(DistBroker.WaitOptions(c.timeout, c.timeoutMessage));
      && (c.timeoutMessage.Some? && c.timeoutMessage.value != "" ==> dist == SrcBroker.TimeoutReason(c))
      && (c.timeoutMessage.None? || c.timeoutMessage.value == "" ==>
            SrcBroker.TimeoutReason(c) == "timeout" && dist != "timeout")
  {
    var dist := DistBroker.TimeoutReason(DistBroker.WaitOptions(c.timeout, c.timeoutMessage));
    if c.timeoutMessage.None? || c.timeoutMessage.value == "" {
      assert dist[..|DistBroker.TimeoutPrefix|] == DistBroker.TimeoutPrefix;
    }
  }
}

=== FILE: wrappers.dfy ===
/** Optional values and results with an error, used for JavaScript's `undefined` fields and thrown errors. */
module Wrappers {

  datatype Option<+T> = None | Some(value: T)

  datatype Result<+T, +E> = Success(value: T) | Failure(error: E)
}
